=== FILE: README.md ===
# Rental-property investment calculator, modelled in Dafny

The repository is a small Python calculator for buying a rental property with
a mortgage. Its core has three parts:

- **The `mortgage` class** is a fixed-rate loan. Its annual payment is
  `P·z^n·r/(z^n − 1)` with `z = 1 + r`, and its monthly payment is one twelfth
  of that. The remaining debt after `y` years is the geometric series
  `P·z^y − payment·(z^y − 1)/(z − 1)`.
- **The `investment_property` class** is the property. Its value compounds at
  a fixed appreciation rate, and its equity is that value less the remaining
  debt. `calculate_all` builds the month-by-month debt, equity, value and
  payment series, together with the time until the loan is paid off.
  - The class exists twice: without a balance sheet in property_and_mortgage.py,
    and with one in investment_property.py.
  - The variant with a balance sheet adds the purchase cap rate and the
    capital-gains series.
- **The `balance_sheet` class** holds named one-time costs, monthly income,
  annual and monthly expenses, expenses proportional to the rent, and capital
  expenditures. It derives sorted listings of the income and of the monthly
  expenses, the monthly cash flow, the total investment and the annual return
  on investment.

The modules follow that structure:

| file | module | models |
|---|---|---|
| results.dfy | `Results` | the four ways the code can fail: `ZeroDivisionError`, the `IndexError` of the sort on empty input, a numpy division by zero, which yields inf/nan, and `AttributeError` |
| powers.dfy | `Powers` | Python's `**`, as an abstract function that agrees with repeated multiplication on whole exponents |
| mortgages.dfy | `Mortgages` | the `mortgage` class, and `LoanView`, the loan as the other classes see it |
| dicts.dfy | `Dicts` | Python dicts as insertion-ordered association lists, `dict.update`, zero filtering and sums |
| sorting.dfy | `Sorting` | `_sort`: a stable sort of (name, value) pairs on the value |
| balance_sheets.dfy | `BalanceSheets` | the `balance_sheet` class |
| projection.dfy | `Projection` | the series builder of `calculate_all`, generic in the debt and value curves |
| investment_properties.dfy | `InvestmentProperties` | both `investment_property` classes, unified with an optional balance sheet |
| scenarios.dfy | `Scenarios` | worked examples: a 300000 loan at 4% over 30 years, a 3% appreciation over ten years, and a small rental |

Modelling choices:

- **Numbers.** Python floats are modelled as exact reals.
- **Exponentiation.** `x ** y` with a fractional `y` is an abstract parameter
  `pow`. Facts about whole years assume `Powers.ExtendsPow(pow)`: `pow` agrees
  with `Pow`, repeated multiplication, on whole-number exponents.
- **Dicts.** A dict is a list of entries with unique names. `dict.update`
  overwrites an existing name in place and appends a new one at the end.
- **Failures.** Exceptions of the modelled code are `Result` failures, with
  three exceptions listed under "Left out": failures of `**` itself (see
  `Mortgages.TryAnnualPayment`); the division by zero of
  `get_monthly_payment` and `calculate_debt_at_month`, which
  `Mortgages.MonthlyPayment` and `Mortgages.DebtAtMonth` exclude by a
  precondition; and what a no-argument call of a method other than the two
  number getters raises (see `BalanceSheets.CallByName`). The mapping is:
  - a Python `ZeroDivisionError` is `DivisionByZero`;
  - the `IndexError` raised by `vals[1]` when `_sort` gets empty lists is `IndexOutOfRange`;
  - a numpy division by zero gives inf or nan without raising, and is `NonFinite`;
  - an `AttributeError`, raised when the code reads a name the object does not define, is `MissingAttribute`.

## Model

| member | source | states |
|---|---|---|
| `Mortgages.TryAnnualPayment` | property_and_mortgage.py:45-50 | fails with a division by zero exactly when `(1+r)**term == 1`; otherwise the payment times `(1+r)**term − 1` is `P·(1+r)**term·r` |
| `Mortgages.MonthlyPayment` | property_and_mortgage.py:53-54 | twelve monthly payments make exactly one annual payment |
| `Mortgages.AnnualPaymentPositive` | property_and_mortgage.py:45-54 | for `P > 0`, `r > 0` and a whole term `n ≥ 1`, the formula is defined and both the annual and the monthly payment are positive |
| `Mortgages.TryDebtAtYear` | property_and_mortgage.py:66-70 | fails with a division by zero exactly when `(1+r)**term == 1` or `r == 0`; otherwise it is the closed-form debt |
| `Mortgages.DebtAtStartIsPrincipal` | property_and_mortgage.py:66-70 | at year 0 the debt is the principal, whatever the extra payment |
| `Mortgages.DebtAtTermIsZero` | property_and_mortgage.py:45-70 | with no extra payment, the debt at the end of the term is exactly 0 |
| `Mortgages.DebtRecurrence` | property_and_mortgage.py:66-69 | for whole years, `debt(y+1) = (1+r)·debt(y) − (annual payment + extra)` |
| `Mortgages.ClosedFormMatchesSchedule` | property_and_mortgage.py:66-70 | the closed form equals the year-by-year schedule that starts at `P`, grows by `1+r` and then subtracts the payment each year |
| `Mortgages.DebtDecreasesWithExtraPayment` | property_and_mortgage.py:66-69 | when `r > 0` and the growth up to `year` exceeds 1, a larger extra payment leaves strictly less debt |
| `Mortgages.DebtDecreasesWithExtraPaymentWholeYears` | property_and_mortgage.py:66-69 | for `r > 0`, after any whole number of years `y ≥ 1`, a larger extra payment leaves strictly less debt |
| `Mortgages.DebtAtMonthDecreasesWithExtraPayment` | property_and_mortgage.py:66-83 | the same monotonicity for the month view and a monthly extra payment |
| `Mortgages.PaymentRetiresDebtExactly` | property_and_mortgage.py:45-70 | the debt at the end of the term is 0 exactly when there is no extra payment, and negative exactly when the extra payment is positive |
| `Mortgages.DebtAtMonthFollowsSchedule` | property_and_mortgage.py:82-83 | at month `12·y` the month view gives the schedule's balance after `y` years, with twelve times the monthly extra as the annual extra |
| `Mortgages.DebtAtMonthEndpoints` | property_and_mortgage.py:72-83 | `calculate_debt_at_month` is the principal at month 0, whatever the extra payment, and, with no extra payment, exactly 0 at month `12·term` |
| `Mortgages.ScheduleStaysPaidOff` | property_and_mortgage.py:66-69 | for `1+r > 0` and a positive payment, once the year-by-year balance is not positive it stays not positive in every later year |
| `Dicts.UpdateMerges` | balance_sheet.py:24-40 | `dict.update`: the old names keep their order in front and the new names follow in argument order; names in the argument read their new value and every other name keeps its old one; names stay unique |
| `Dicts.NonZero` | balance_sheet.py:102-105 | keeps exactly the entries whose value is not zero |
| `Dicts.PutZeroKeepsNonZero` | balance_sheet.py:102-105 | merging `{name: 0}` over a missing or zero entry leaves the non-zero entries as they were |
| `Sorting.StableSort` | balance_sheet.py:71-72 | the result is a permutation of the input that is ordered on value, and entries of equal value keep their input order |
| `Sorting.StableSortKeepsEntries` | balance_sheet.py:71-72 | an entry occurs in the sorted list exactly when it occurs in the input |
| `Sorting.SortByValue` | balance_sheet.py:61-73 | `_sort` fails with an index error exactly when the names or the values are empty; otherwise the names and values it returns have equal length and pair up as a stable sort of the zipped input |
| `Sorting.SortByValueKeepsSum` | balance_sheet.py:61-73 | sorting does not change the sum of the values |
| `BalanceSheets.NewBalanceSheet` | balance_sheet.py:8-22 | the mortgage payment is the only monthly expense, the down payment the only one-time cost, and every other mapping is empty |
| `BalanceSheets.AddOneTimeCosts` | balance_sheet.py:24-25 | merges into the one-time costs; the other five mappings and the loan are unchanged |
| `BalanceSheets.AddMonthlyIncome` | balance_sheet.py:27-28 | merges into the monthly income; nothing else changes |
| `BalanceSheets.AddAnnualExpenses` | balance_sheet.py:30-31 | merges into the annual expenses; nothing else changes |
| `BalanceSheets.AddMonthlyExpenses` | balance_sheet.py:33-34 | merges into the monthly expenses; nothing else changes |
| `BalanceSheets.AddExpensesProportionalToRent` | balance_sheet.py:36-37 | merges into the rent fractions; nothing else changes |
| `BalanceSheets.AddCapitalExpenditures` | balance_sheet.py:39-40 | merges into the capital expenditures; nothing else changes |
| `BalanceSheets.MonthlyCapEx` | balance_sheet.py:82-89 | fails with a division by zero exactly when some entry with a non-zero amount has a zero period; otherwise it is empty exactly when every amount is zero |
| `BalanceSheets.MonthlyCapExCovers` | balance_sheet.py:84-89 | every entry with a non-zero amount contributes `amount / (12·period)` under its own name |
| `BalanceSheets.MonthlyCapExSound` | balance_sheet.py:84-89 | every contribution is non-zero and comes from an entry of the same name whose amount it spreads over the months of the period |
| `BalanceSheets.CalculateMonthlyCapitalExpenditures` | balance_sheet.py:75-91 | a division by zero as above; otherwise an index error exactly when every amount is zero; otherwise a stable sort of the contributions |
| `BalanceSheets.CalculateTotalIncome` | balance_sheet.py:93-106 | fails with an index error exactly when no income is non-zero; otherwise a stable sort, and permutation, of the non-zero income entries |
| `BalanceSheets.TotalIncomeListsNonZeroEntries` | balance_sheet.py:100-106 | an entry is listed exactly when it is a non-zero income entry |
| `BalanceSheets.CalculateTotalExpenses` | balance_sheet.py:108-138 | fails with an index error when there is no non-zero income or no non-zero capital expenditure, and, given income, with a division by zero when a capital expenditure with a non-zero amount has a zero period; otherwise it is a stable sort of: annual expenses over 12, monthly expenses, rent fractions times the total income, and one "Capital expenditures" item when the reserve is positive, all zero-filtered |
| `BalanceSheets.ExpensesFailOnlyWithoutItems` | balance_sheet.py:108-138 | once the income and the capital expenditures sort, the expense sort fails exactly when there is no expense item |
| `BalanceSheets.MonthlyExpenseIsListed` | balance_sheet.py:121-124 | a non-zero monthly expense, the mortgage payment among them, appears in the expense listing with its value |
| `BalanceSheets.ExpensesCongruence` | balance_sheet.py:115-138 | the expense listing depends on the income and expense mappings only through their non-zero entries |
| `BalanceSheets.CashFlow` | balance_sheet.py:42-45 | fails exactly when the expense listing fails, with the same error |
| `BalanceSheets.CashFlowIgnoresOrder` | balance_sheet.py:42-45 | the cash flow is the unsorted total of the non-zero income less the unsorted total of the expense items |
| `BalanceSheets.IncomeIgnoresZeroEntry` | balance_sheet.py:100-106 | adding a zero income under a new name, or over a zero one, changes neither listing nor the cash flow |
| `BalanceSheets.AnnualExpensesIgnoreZeroEntry` | balance_sheet.py:117-120 | the same for a zero annual expense |
| `BalanceSheets.MonthlyExpensesIgnoreZeroEntry` | balance_sheet.py:121-124 | the same for a zero monthly expense |
| `BalanceSheets.ProportionalExpensesIgnoreZeroEntry` | balance_sheet.py:127-131 | the same for a zero rent fraction |
| `BalanceSheets.OneTimeCostsAddUp` | balance_sheet.py:47-48 | `get_total_one_time_costs`: costs added under new names add their sum, zeros included, to the total investment |
| `Dicts.PutSum` | balance_sheet.py:24-25 | assigning a new value to a name already in a dict swaps its old value for the new one in the sum of the values |
| `BalanceSheets.OneTimeCostReplaced` | balance_sheet.py:24-48 | adding a one-time cost under a name already present replaces its old amount in the total investment |
| `BalanceSheets.Roi` | balance_sheet.py:181-191 | non-finite exactly when the total investment is 0; otherwise the ROI times the investment is twelve months of cash flow |
| `BalanceSheets.AnnualRoi` | balance_sheet.py:181-191 | fails when the cash flow fails or the one-time costs total 0, and is otherwise the ROI of the sheet's cash flow and total investment |
| `Projection.MonthCount` | investment_property.py:113-116 | `int(12·term)` as a range length: `⌊12·term⌋` when `12·term ≥ 1`, and 0 otherwise |
| `Projection.ClampedDebt` | investment_property.py:125 | the recorded debt is never negative, is at least the raw debt, and is either the raw debt or 0 |
| `Projection.ClampedEquity` | investment_property.py:126 | the recorded equity is at most both the value and the raw equity, and is one of them |
| `Projection.PaymentFor` | investment_property.py:128-131 | the full instalment is paid while the debt is positive; the payment is 0 exactly when the debt is not positive or the instalment is 0 |
| `Projection.LastMonthWithDebt` | investment_property.py:118-132 | the last month below the count whose debt is positive, or 0 when there is none: a positive result has positive debt and every later month has none |
| `Projection.Project` | property_and_mortgage.py:168-188 | the five series have length `int(12·term)`; `months[i] == i`; debts are clamped and never negative; `equities[i] == values[i] − debts[i] ≤ values[i]`, with equality exactly when the raw debt is not positive; a payment is 0 exactly when the raw debt is not positive or the instalment is 0; the payoff time is the last month with debt over 12 |
| `InvestmentProperties.ValueAtPurchase` | investment_property.py:50-51 | at year 0 the value is the initial value |
| `InvestmentProperties.ValueRecurrence` | investment_property.py:50-51 | each whole year multiplies the value by `1 + a` |
| `InvestmentProperties.ValueAtWholeYear` | investment_property.py:40-51 | `get_property_value_at_year` at a whole year `y` is `V0` multiplied by `1+a` once per year |
| `InvestmentProperties.ValueCompounds` | property_and_mortgage.py:113-114 | the value after `y + k` whole years is the value after `y` years times `(1+a)^k` |
| `InvestmentProperties.ValueAtWholeYearMonth` | investment_property.py:53-63 | `get_property_value_at_month` at month `12·y` is `V0·(1+a)^y` |
| `InvestmentProperties.EquityAtMonthDelegates` | investment_property.py:88-102 | `calculate_equity_at_month` is the year view at `month/12` with twelve times the monthly extra payment |
| `InvestmentProperties.EquityAtPurchase` | investment_property.py:83-86 | at purchase the equity is the initial value less the principal |
| `InvestmentProperties.EquityAtPayoff` | property_and_mortgage.py:138-141 | with no extra payment, the equity at the end of the term is the whole value |
| `InvestmentProperties.EquityIncreasesWithExtraPayment` | investment_property.py:83-86 | for `r > 0`, after any whole number of years `y ≥ 1`, a larger extra payment leaves strictly more equity |
| `InvestmentProperties.EquityAtWholeYear` | investment_property.py:73-86 | `calculate_equity_at_year` at a whole year `y` is `V0·(1+a)^y` less the balance of the year-by-year repayment schedule after `y` years |
| `InvestmentProperties.EquityAtWholeYearMonth` | investment_property.py:88-102 | `calculate_equity_at_month` at month `12·y` is `V0·(1+a)^y` less the schedule's balance after `y` years, with twelve times the monthly extra payment as the annual one |
| `InvestmentProperties.CalculateAll` | investment_property.py:113-133 | `Projection.Project` over the loan's monthly debt and the monthly value; each equity is the class's own month equity, clamped to the value |
| `InvestmentProperties.ProjectMortgage` | property_and_mortgage.py:168-188 | for a concrete mortgage with `P > 0`, `r > 0`, a whole term `n ≥ 1` and a non-negative extra payment, there are `12·n` months; a payment is 0 exactly when the raw debt is not positive; and at each year boundary the recorded debt is the annual schedule's balance, clamped; and once the debt at a year boundary is 0, it is 0 at every later year boundary, where the equity is the whole value |
| `InvestmentProperties.CapRate` | investment_property.py:70-71 | non-finite exactly when the value is 0; otherwise the rate times the value is the cash flow |
| `InvestmentProperties.PurchaseCapRate` | investment_property.py:65-71 | fails exactly when the cash flow fails or the initial value is 0; otherwise it is the cash flow over the initial value |
| `InvestmentProperties.AccumulateGains` | investment_property.py:175-177 | `gains[i] = equities[i] + i·cash flow − one-time costs`, and consecutive gains differ by the change in equity plus one month of cash flow |
| `InvestmentProperties.CapitalGains` | investment_property.py:170-177 | fails exactly when the cash flow fails; otherwise one gain per month, built from the clamped equity, `i` months of cash flow and the one-time costs |
| `BalanceSheets.GetAttribute` | balance_sheet.py:4-192 | reading a name the class defines neither as an attribute in `__init__` nor as a method, and which is not a dunder name, raises `AttributeError`; each of the seven attributes, trailing underscore included, reads its own dict or the loan, and each method name resolves to that method |
| `BalanceSheets.SetMortgage` | balance_sheet.py:50-59 | stores the loan and, once the new loan's monthly payment has been computed, reads the undefined attribute `monthly_expenses`, so the call fails with `AttributeError` and no dict is updated |
| `BalanceSheets.CallByName` | balance_sheet.py:4-192 | calling an undefined name raises `AttributeError`; `get_cash_flow` gives the cash flow or its failure and `get_total_one_time_costs` gives the total investment; every other attribute or method the class defines gives no number |
| `InvestmentProperties.PurchaseCapRateAsWritten` | investment_property.py:65-71 | as written, the cap rate asks for `get_monthly_cash_flow` and so fails with `AttributeError` on every property |
| `InvestmentProperties.CapitalGainsAsWritten` | investment_property.py:162-177 | as written, the gains computation asks for `get_monthly_cash_flow` and so fails with `AttributeError` on every property |
| `Scenarios.RentalCapRate` | investment_property.py:65-71 | for the rental bought at 300000, the cap rate as written raises, and the intended one is 69.89 / 300000 |
| `Scenarios.ExampleMortgagePayments` | property_and_mortgage.py:45-54 | 300000 at 4% over 30 years: the annual payment is 17349.03 and the monthly payment 1445.75, to the cent |
| `Scenarios.ExamplePropertyValue` | investment_property.py:50-51 | 300000 appreciating 3% a year is worth 403174.91 after ten years, to the cent |
| `Scenarios.RentalWithoutCapExFails` | balance_sheet.py:133-138 | a rental with income and expenses but no capital expenditure has no expense listing and no cash flow: the empty capital-expenditure sort fails |
| `Scenarios.RentalWithRoofCashFlow` | balance_sheet.py:42-45 | the same rental with a 100-a-month roof reserve has a cash flow of 69.89 |

## Behaviour of the code worth knowing

- **Replacing the mortgage.** The docstring of `set_mortgage`
  (balance_sheet.py:51-56) says it sets the mortgage payment and the down
  payment. The code indexes `monthly_expenses` instead of `monthly_expenses_`
  (balance_sheet.py:58). The right-hand side `get_monthly_payment()` runs
  first, so once the new mortgage's payment has been computed the call
  raises `AttributeError`. `BalanceSheets.SetMortgage` states that failure.
- **A rental without capital expenditure.** A sheet with rent 2000, a
  mortgage payment of 1430.11, insurance of 100 a month, tax of 3600 a year
  and no capital expenditure has no expense listing: `calculate_total_expenses`
  sorts the empty capital-expenditure list and raises `IndexError`
  (balance_sheet.py:71-73, 133). `Scenarios.RentalWithoutCapExFails` states
  this. With a roof reserve of 24000 every 20 years added, the cash flow is
  69.89 (`Scenarios.RentalWithRoofCashFlow`).
- **A 300000 loan at 4% over 30 years.** The payment formula
  (property_and_mortgage.py:45-54) gives an annual payment of 17349.03 and a
  monthly payment of 1445.75 (`Scenarios.ExampleMortgagePayments`).
- **Empty sorts.** `_sort` raises `IndexError` at `vals[1]` when it gets
  empty lists (balance_sheet.py:71-73). This happens when no income entry is
  non-zero (balance_sheet.py:106), when no capital-expenditure amount is
  non-zero (balance_sheet.py:91), and when the expense listing has no item
  (balance_sheet.py:138), for instance a zero mortgage payment, no other
  expense and a negative capital-expenditure total. The model returns
  `IndexOutOfRange` in exactly those cases.
- **Division by zero in numpy.** A zero initial value in the cap rate
  (investment_property.py:70-71) or a zero total investment in the ROI of
  `print_statement` (balance_sheet.py:181-191) divides numpy floats, which
  yields inf or nan instead of raising. The model returns `NonFinite`.

## Findings

| source | as written | input that shows it | evidently intended | confidence | as-written member | corrected member |
|---|---|---|---|---|---|---|
| investment_property.py:70 | `get_purchase_cap_rate` calls `get_monthly_cash_flow`, which the balance sheet does not define, so it raises `AttributeError` | any property with a balance sheet, such as `Scenarios.RentalProperty` | call `get_cash_flow` (balance_sheet.py:42-45) and divide by the initial value | high; not executed | `InvestmentProperties.PurchaseCapRateAsWritten` | `InvestmentProperties.PurchaseCapRate` |
| investment_property.py:173 | `plot_gains` calls `get_monthly_cash_flow` after building the series, so it raises `AttributeError` | any property with a balance sheet | use `get_cash_flow` as the monthly cash flow of each gain | high; not executed | `InvestmentProperties.CapitalGainsAsWritten` | `InvestmentProperties.CapitalGains` |

## Left out

- **Display.** All plotting and printing is left out. This covers
  `plot_equity_and_debt`, the matplotlib part of `plot_gains`,
  `plot_expenses`, `plot_capital_expenditures`, the `print` calls of
  `print_statement`, and display_utils.py. It is display only; the arithmetic
  of `print_statement` is modelled by `BalanceSheets.Roi` and
  `BalanceSheets.AnnualRoi`.
- **Floating point.** Floats are exact reals, so rounding, overflow, inf and
  nan are not modelled. The one exception is numpy's division by zero, which
  is `NonFinite`.
- **Fractional powers.** `x ** y` for fractional `y` is left abstract, so
  month-level facts hold for any `pow`. Whole-year facts assume only that
  `pow` agrees with repeated multiplication on whole exponents.
- **The external `mortgage` module.** The module imported at
  investment_property.py:18 is not part of this model, and neither is the
  `loan_down_payment_` attribute read at balance_sheet.py:22. Both are seen
  through `Mortgages.LoanView`: a record of the monthly payment, the down
  payment, the term and the debt curves. `Mortgages.ViewOf` builds that record
  from the modelled `mortgage` class.
- `BalanceSheets.SetMortgage` returns only the `AttributeError`. In the code
  the new mortgage is already stored in `mortgage_` when the error is raised;
  the model does not keep that partial update. A loan's payment in the model
  is always a number, so a mortgage whose `get_monthly_payment` raises (for
  instance `ZeroDivisionError` when `(1+r)**term == 1`) is not modelled; in
  the code `set_mortgage` raises that error instead of `AttributeError`.
- **Zero capital expenditure.** Adding a capital expenditure with a zero
  amount is not given a lemma of its own. `BalanceSheets.MonthlyCapEx` skips
  such entries, as the code does.
- **Bad argument types.** Dictionaries passed to the `add_*` methods are
  Python dicts, so their names are unique; the model requires this. Non-numeric
  arguments, which Python would reject at run time, are not modelled.
- `Mortgages.DebtDecreasesWithExtraPayment` assumes that `(1+r)**year > 1`
  rather than deriving it from `year > 0`, because fractional powers are
  abstract. `Mortgages.DebtDecreasesWithExtraPaymentWholeYears` derives it
  for whole years.
- `Mortgages.DebtAtMonthDecreasesWithExtraPayment` makes the same assumption
  for `(1+r)**(month/12)`.
- `Projection.Project` computes each month's equity as value minus debt
  instead of calling `calculate_equity_at_month` a second time.
  `InvestmentProperties.CalculateAll` states that the two agree.
- `BalanceSheets.CalculateTotalExpenses` does not state in its own contract
  exactly when the sort fails. `BalanceSheets.ExpensesFailOnlyWithoutItems`
  completes the statement.
- `BalanceSheets.CashFlow` does not state its value in its own contract.
  `BalanceSheets.CashFlowIgnoresOrder` states it.
- `Mortgages.TryAnnualPayment` does not model failures of `**` when
  `1 + r <= 0`: `0.0 ** negative` raises `ZeroDivisionError`, and a negative
  base with a fractional exponent gives a complex number. `pow` is an
  abstract total function on reals, so the model has no such failures.
- `Mortgages.TryDebtAtYear` does not model the same `**` failures for
  `1 + r <= 0`. In the code a complex debt would also make the comparison
  `debt > 0` in `calculate_all` raise `TypeError`.
- `Mortgages.ViewOf` requires that the debt formula is defined, that is
  `r != 0` and `(1+r)**term != 1`. So a property whose loan would raise
  `ZeroDivisionError` in `calculate_equity_at_year`,
  `calculate_equity_at_month`, or the first month of `calculate_all`, is not
  modelled; `Mortgages.TryDebtAtYear` states when that error occurs.
- `BalanceSheets.GetAttribute` makes no claim about dunder names, which every
  Python object inherits from `object`; apart from `__init__` it returns
  `MissingAttribute` for them.
- `Mortgages.MonthlyPayment` requires the payment formula to be defined, so
  the `ZeroDivisionError` of `get_monthly_payment` when `(1+r)**term == 1` is
  excluded rather than returned. `Mortgages.TryAnnualPayment` states exactly
  when it occurs.
- `Mortgages.DebtAtMonth` requires the debt formula to be defined, so the
  `ZeroDivisionError` of `calculate_debt_at_month` is excluded rather than
  returned. `Mortgages.TryDebtAtYear` states exactly when it occurs for the
  year view the month view calls.
- `BalanceSheets.CallByName` returns "no number" for every defined name other
  than `get_cash_flow` and `get_total_one_time_costs`, whether the
  no-argument call would return a value or raise. Calling `_sort` or an
  `add_*` method without arguments raises `TypeError`, and
  `calculate_total_income()` raises `IndexError` on an all-zero income; the
  model does not tell these apart, since the only caller of interest asks for
  an undefined name.

=== FILE: balance_sheets.dfy ===
/** The `balance_sheet` class: named one-time costs, income and expenses, and
    the monthly figures derived from them. */
module BalanceSheets {
  import opened Results
  import opened Dicts
  import opened Sorting
  import opened Mortgages

  /** A capital expenditure: `amount` dollars spent every `periodYears` years. */
  datatype CapEx = CapEx(periodYears: real, amount: real)

  datatype BalanceSheet = BalanceSheet(
    oneTimeCosts: Dict<real>,
    monthlyIncome: Dict<real>,
    annualExpenses: Dict<real>,
    monthlyExpenses: Dict<real>,
    expensesProportionalToRent: Dict<real>,  // fractions of the total monthly income
    capitalExpenditures: Dict<CapEx>,
    loan: LoanView)

  /** Every mapping is a Python dict: no name twice. */
  ghost predicate Valid(s: BalanceSheet)
  {
    && UniqueNames(s.oneTimeCosts)
    && UniqueNames(s.monthlyIncome)
    && UniqueNames(s.annualExpenses)
    && UniqueNames(s.monthlyExpenses)
    && UniqueNames(s.expensesProportionalToRent)
    && UniqueNames(s.capitalExpenditures)
  }

  /** `__init__`: the loan's monthly payment is the one monthly expense, its
      down payment the one one-time cost; everything else is empty. */
  function NewBalanceSheet(loan: LoanView): (s: BalanceSheet)
    ensures Valid(s)
    ensures Names(s.monthlyExpenses) == ["Mortgage"]
    ensures Lookup(s.monthlyExpenses, "Mortgage") == Some(loan.monthlyPayment)
    ensures Names(s.oneTimeCosts) == ["Down payment"]
    ensures Lookup(s.oneTimeCosts, "Down payment") == Some(loan.downPayment)
    ensures s.monthlyIncome == [] && s.annualExpenses == [] && s.expensesProportionalToRent == []
    ensures s.capitalExpenditures == []
    ensures TotalOneTimeCosts(s) == loan.downPayment
  {
    var costs := [Entry("Down payment", loan.downPayment)];
    assert Values(costs) == [loan.downPayment];
    assert Sum([loan.downPayment]) == loan.downPayment + Sum([]);
    BalanceSheet(
      costs,
      [], [],
      [Entry("Mortgage", loan.monthlyPayment)],
      [], [],
      loan)
  }

  function AddOneTimeCosts(s: BalanceSheet, costs: Dict<real>): (r: BalanceSheet)
    requires Valid(s) && UniqueNames(costs)
    ensures Valid(r)
    ensures MergedInto(s.oneTimeCosts, costs, r.oneTimeCosts)
    ensures r == s.(oneTimeCosts := r.oneTimeCosts)
  {
    UpdateMerges(s.oneTimeCosts, costs);
    s.(oneTimeCosts := Update(s.oneTimeCosts, costs))
  }

  function AddMonthlyIncome(s: BalanceSheet, income: Dict<real>): (r: BalanceSheet)
    requires Valid(s) && UniqueNames(income)
    ensures Valid(r)
    ensures MergedInto(s.monthlyIncome, income, r.monthlyIncome)
    ensures r == s.(monthlyIncome := r.monthlyIncome)
  {
    UpdateMerges(s.monthlyIncome, income);
    s.(monthlyIncome := Update(s.monthlyIncome, income))
  }

  function AddAnnualExpenses(s: BalanceSheet, expenses: Dict<real>): (r: BalanceSheet)
    requires Valid(s) && UniqueNames(expenses)
    ensures Valid(r)
    ensures MergedInto(s.annualExpenses, expenses, r.annualExpenses)
    ensures r == s.(annualExpenses := r.annualExpenses)
  {
    UpdateMerges(s.annualExpenses, expenses);
    s.(annualExpenses := Update(s.annualExpenses, expenses))
  }

  function AddMonthlyExpenses(s: BalanceSheet, expenses: Dict<real>): (r: BalanceSheet)
    requires Valid(s) && UniqueNames(expenses)
    ensures Valid(r)
    ensures MergedInto(s.monthlyExpenses, expenses, r.monthlyExpenses)
    ensures r == s.(monthlyExpenses := r.monthlyExpenses)
  {
    UpdateMerges(s.monthlyExpenses, expenses);
    s.(monthlyExpenses := Update(s.monthlyExpenses, expenses))
  }

  function AddExpensesProportionalToRent(s: BalanceSheet, fractions: Dict<real>): (r: BalanceSheet)
    requires Valid(s) && UniqueNames(fractions)
    ensures Valid(r)
    ensures MergedInto(s.expensesProportionalToRent, fractions, r.expensesProportionalToRent)
    ensures r == s.(expensesProportionalToRent := r.expensesProportionalToRent)
  {
    UpdateMerges(s.expensesProportionalToRent, fractions);
    s.(expensesProportionalToRent := Update(s.expensesProportionalToRent, fractions))
  }

  function AddCapitalExpenditures(s: BalanceSheet, capEx: Dict<CapEx>): (r: BalanceSheet)
    requires Valid(s) && UniqueNames(capEx)
    ensures Valid(r)
    ensures MergedInto(s.capitalExpenditures, capEx, r.capitalExpenditures)
    ensures r == s.(capitalExpenditures := r.capitalExpenditures)
  {
    UpdateMerges(s.capitalExpenditures, capEx);
    s.(capitalExpenditures := Update(s.capitalExpenditures, capEx))
  }

  /** Some entry has a non-zero amount but a zero period: its monthly share
      divides by zero. */
  predicate CapExDividesByZero(d: Dict<CapEx>)
  {
    exists i :: 0 <= i < |d| && d[i].value.amount != 0.0 && d[i].value.periodYears == 0.0
  }

  /** No entry has a non-zero amount, so nothing is left to sort. */
  predicate NoCapExAmount(d: Dict<CapEx>)
  {
    forall i :: 0 <= i < |d| ==> d[i].value.amount == 0.0
  }

  lemma CapExTail(d: Dict<CapEx>)
    requires d != []
    ensures CapExDividesByZero(d) <==>
      (d[0].value.amount != 0.0 && d[0].value.periodYears == 0.0) || CapExDividesByZero(d[1..])
    ensures NoCapExAmount(d) <==> d[0].value.amount == 0.0 && NoCapExAmount(d[1..])
  {
    if CapExDividesByZero(d[1..]) {
      var i :| 0 <= i < |d[1..]| && d[1..][i].value.amount != 0.0 && d[1..][i].value.periodYears == 0.0;
      assert d[i + 1] == d[1..][i];
    }
    assert forall i :: 1 <= i < |d| ==> d[i] == d[1..][i - 1];
  }

  /** The loop of calculate_monthly_capital_expenditures: skip zero amounts,
      spread every other amount over the months of its period. */
  function MonthlyCapEx(d: Dict<CapEx>): (r: Result<Dict<real>>)
    ensures r.Failure? <==> CapExDividesByZero(d)
    ensures r.Failure? ==> r.error == DivisionByZero
    ensures r.Success? ==> (r.value == [] <==> NoCapExAmount(d))
  {
    if d == [] then Success([])
    else
      var c := d[0].value;
      var rest := MonthlyCapEx(d[1..]);
      CapExTail(d);
      if c.amount == 0.0 then rest
      else if c.periodYears == 0.0 then Failure(DivisionByZero)
      else
        var tail :- rest;
        Success([Entry(d[0].name, c.amount / (12.0 * c.periodYears))] + tail)
  }

  /** Every entry with a non-zero amount contributes its monthly share. */
  lemma {:induction false} MonthlyCapExCovers(d: Dict<CapEx>, i: int)
    requires !CapExDividesByZero(d)
    requires 0 <= i < |d| && d[i].value.amount != 0.0
    ensures Entry(d[i].name, d[i].value.amount / (12.0 * d[i].value.periodYears)) in MonthlyCapEx(d).value
  {
    CapExTail(d);
    if i > 0 {
      assert d[1..][i - 1] == d[i];
      MonthlyCapExCovers(d[1..], i - 1);
    }
  }

  /** Every monthly share comes from an entry of the same name, is not zero,
      and over twelve months of the period adds up to the entry's amount. */
  lemma {:induction false} MonthlyCapExSound(d: Dict<CapEx>, e: Entry<real>)
    requires !CapExDividesByZero(d)
    requires e in MonthlyCapEx(d).value
    ensures e.value != 0.0
    ensures exists c :: Entry(e.name, c) in d && c.periodYears != 0.0 && e.value * (12.0 * c.periodYears) == c.amount
  {
    var c := d[0].value;
    CapExTail(d);
    if c.amount != 0.0 && e == Entry(d[0].name, c.amount / (12.0 * c.periodYears)) {
      assert Entry(e.name, c) == d[0];
    } else {
      MonthlyCapExSound(d[1..], e);
      var c' :| Entry(e.name, c') in d[1..] && c'.periodYears != 0.0 && e.value * (12.0 * c'.periodYears) == c'.amount;
      assert Entry(e.name, c') in d;
    }
  }

  /** calculate_monthly_capital_expenditures. */
  function CalculateMonthlyCapitalExpenditures(s: BalanceSheet): (r: Result<Listing>)
    ensures r.Failure? <==> CapExDividesByZero(s.capitalExpenditures) || NoCapExAmount(s.capitalExpenditures)
    ensures CapExDividesByZero(s.capitalExpenditures) ==> r == Failure(DivisionByZero)
    ensures !CapExDividesByZero(s.capitalExpenditures) && NoCapExAmount(s.capitalExpenditures)
            ==> r == Failure(IndexOutOfRange)
    ensures r.Success? ==> IsStableSortOf(Pairs(r.value), MonthlyCapEx(s.capitalExpenditures).value)
  {
    var monthly :- MonthlyCapEx(s.capitalExpenditures);
    ZipOfDict(monthly);
    SortByValue(Names(monthly), Values(monthly))
  }

  /** The attributes `__init__` gives a sheet (balance_sheet.py:11-20). */
  const AttributeNames: set<string> := {
    "one_time_costs_", "monthly_income_", "annual_expenses_", "monthly_expenses_",
    "expenses_proportional_to_rent_", "capital_expenditures_", "mortgage_"}

  /** The methods the class defines (balance_sheet.py:8-192). */
  const MethodNames: set<string> := {
    "__init__", "add_one_time_costs", "add_monthly_income", "add_annual_expenses",
    "add_monthly_expenses", "add_expenses_proportional_to_rent", "add_capital_expenditures",
    "get_cash_flow", "get_total_one_time_costs", "set_mortgage", "_sort",
    "calculate_monthly_capital_expenditures", "calculate_total_income",
    "calculate_total_expenses", "plot_expenses", "plot_capital_expenditures",
    "print_statement"}

  /** A name that begins and ends with two underscores. Every Python object
      inherits many such names, so all of them count as possibly defined. */
  predicate Dunder(name: string)
  {
    |name| >= 4 && name[..2] == "__" && name[|name| - 2..] == "__"
  }

  /** A name that reading from a sheet may resolve. */
  predicate Defined(name: string)
  {
    name in AttributeNames || name in MethodNames || Dunder(name)
  }

  /** What an attribute read gives: one of the dicts, the loan, or a method. */
  datatype Attribute =
    | NumberDict(entries: Dict<real>)
    | CapExDict(capEx: Dict<CapEx>)
    | Loan(loan: LoanView)
    | Method(methodName: string)

  /** Reading an attribute of the sheet by its Python name. A name the class
      does not define raises AttributeError. */
  function GetAttribute(s: BalanceSheet, name: string): (r: Result<Attribute>)
    ensures !Defined(name) ==> r == Failure(MissingAttribute)
    ensures name in AttributeNames || name in MethodNames ==> r.Success?
    ensures name in MethodNames ==> r == Success(Method(name))
    ensures name == "one_time_costs_" ==> r == Success(NumberDict(s.oneTimeCosts))
    ensures name == "monthly_income_" ==> r == Success(NumberDict(s.monthlyIncome))
    ensures name == "annual_expenses_" ==> r == Success(NumberDict(s.annualExpenses))
    ensures name == "monthly_expenses_" ==> r == Success(NumberDict(s.monthlyExpenses))
    ensures name == "expenses_proportional_to_rent_" ==> r == Success(NumberDict(s.expensesProportionalToRent))
    ensures name == "capital_expenditures_" ==> r == Success(CapExDict(s.capitalExpenditures))
    ensures name == "mortgage_" ==> r == Success(Loan(s.loan))
  {
    if name == "one_time_costs_" then Success(NumberDict(s.oneTimeCosts))
    else if name == "monthly_income_" then Success(NumberDict(s.monthlyIncome))
    else if name == "annual_expenses_" then Success(NumberDict(s.annualExpenses))
    else if name == "monthly_expenses_" then Success(NumberDict(s.monthlyExpenses))
    else if name == "expenses_proportional_to_rent_" then Success(NumberDict(s.expensesProportionalToRent))
    else if name == "capital_expenditures_" then Success(CapExDict(s.capitalExpenditures))
    else if name == "mortgage_" then Success(Loan(s.loan))
    else if name in MethodNames then Success(Method(name))
    else Failure(MissingAttribute)
  }

  /** set_mortgage, as written: after storing the loan and computing the
      new loan's monthly payment, it indexes `monthly_expenses`, without the
      trailing underscore of the attribute `__init__` creates, so it raises
      AttributeError before either dict is updated. */
  function SetMortgage(s: BalanceSheet, loan: LoanView): (r: Result<BalanceSheet>)
    ensures r == Failure(MissingAttribute)
  {
    var withLoan := s.(loan := loan);
    match (GetAttribute(withLoan, "monthly_expenses"), GetAttribute(withLoan, "one_time_costs_"))
    case (Success(NumberDict(monthly)), Success(NumberDict(costs))) =>
      Success(withLoan.(monthlyExpenses := Put(monthly, "Mortgage", loan.monthlyPayment),
                        oneTimeCosts := Put(costs, "Down payment", loan.downPayment)))
    case (Failure(e), _) => Failure(e)
    case (_, Failure(e)) => Failure(e)
    case _ => Failure(MissingAttribute)
  }

  /** Every monthly income entry is zero, so nothing is left to sort. */
  predicate NoIncome(s: BalanceSheet)
  {
    forall i :: 0 <= i < |s.monthlyIncome| ==> s.monthlyIncome[i].value == 0.0
  }

  /** calculate_total_income: the non-zero income entries, sorted on value. */
  function CalculateTotalIncome(s: BalanceSheet): (r: Result<Listing>)
    ensures r.Failure? <==> NoIncome(s)
    ensures r.Failure? ==> r.error == IndexOutOfRange
    ensures r.Success? ==> IsStableSortOf(Pairs(r.value), NonZero(s.monthlyIncome))
    ensures r.Success? ==> multiset(Pairs(r.value)) == multiset(NonZero(s.monthlyIncome))
  {
    var income := NonZero(s.monthlyIncome);
    ZipOfDict(income);
    assert income == [] <==> NoIncome(s) by {
      if !NoIncome(s) {
        var i :| 0 <= i < |s.monthlyIncome| && s.monthlyIncome[i].value != 0.0;
        assert s.monthlyIncome[i] in income;
      }
    }
    SortByValue(Names(income), Values(income))
  }

  /** The total monthly income, in input order. */
  function IncomeTotal(s: BalanceSheet): real
  {
    Sum(Values(NonZero(s.monthlyIncome)))
  }

  /** The total monthly capital-expenditure reserve, in input order. */
  function CapExTotal(s: BalanceSheet): real
    requires !CapExDividesByZero(s.capitalExpenditures)
  {
    Sum(Values(MonthlyCapEx(s.capitalExpenditures).value))
  }

  /** The monthly expense entries before sorting: non-zero annual expenses over
      twelve, non-zero monthly expenses, non-zero rent fractions of the income,
      and one 'Capital expenditures' entry when the reserve is positive. */
  function ExpenseItems(s: BalanceSheet, incomeTotal: real, capExTotal: real): Dict<real>
  {
    MapValues(NonZero(s.annualExpenses), v => v / 12.0)
    + NonZero(s.monthlyExpenses)
    + MapValues(NonZero(s.expensesProportionalToRent), v => v * incomeTotal)
    + (if capExTotal > 0.0 then [Entry("Capital expenditures", capExTotal)] else [])
  }

  /** calculate_total_expenses. It needs the income and the capital
      expenditures, whose sorts fail on empty input. */
  function CalculateTotalExpenses(s: BalanceSheet): (r: Result<Listing>)
    ensures NoIncome(s) ==> r == Failure(IndexOutOfRange)
    ensures NoCapExAmount(s.capitalExpenditures) ==> r == Failure(IndexOutOfRange)
    ensures !NoIncome(s) && CapExDividesByZero(s.capitalExpenditures) ==> r == Failure(DivisionByZero)
    ensures r.Success? ==> !CapExDividesByZero(s.capitalExpenditures)
    ensures r.Success? ==> IsStableSortOf(Pairs(r.value), ExpenseItems(s, IncomeTotal(s), CapExTotal(s)))
  {
    var income :- CalculateTotalIncome(s);
    var capEx :- CalculateMonthlyCapitalExpenditures(s);
    SortByValueKeepsSum(NonZero(s.monthlyIncome));
    SortByValueKeepsSum(MonthlyCapEx(s.capitalExpenditures).value);
    var items := ExpenseItems(s, Sum(income.values), Sum(capEx.values));
    ZipOfDict(items);
    SortByValue(Names(items), Values(items))
  }

  lemma IncomeListingTotal(s: BalanceSheet)
    requires CalculateTotalIncome(s).Success?
    ensures Sum(CalculateTotalIncome(s).value.values) == IncomeTotal(s)
  {
    SortByValueKeepsSum(NonZero(s.monthlyIncome));
  }

  lemma ExpenseListingTotal(s: BalanceSheet)
    requires CalculateTotalExpenses(s).Success?
    ensures !CapExDividesByZero(s.capitalExpenditures)
    ensures Sum(CalculateTotalExpenses(s).value.values) == Sum(Values(ExpenseItems(s, IncomeTotal(s), CapExTotal(s))))
  {
    IncomeListingTotal(s);
    SortByValueKeepsSum(MonthlyCapEx(s.capitalExpenditures).value);
    var items := ExpenseItems(s, IncomeTotal(s), CapExTotal(s));
    assert CalculateTotalExpenses(s) == SortByValue(Names(items), Values(items));
    SortByValueKeepsSum(items);
  }

  /** Once the income and the capital expenditures can be sorted, the
      expense sort fails only when there is no expense item at all. */
  lemma ExpensesFailOnlyWithoutItems(s: BalanceSheet)
    requires !NoIncome(s) && !CapExDividesByZero(s.capitalExpenditures) && !NoCapExAmount(s.capitalExpenditures)
    ensures CalculateTotalExpenses(s).Failure? <==> ExpenseItems(s, IncomeTotal(s), CapExTotal(s)) == []
    ensures CalculateTotalExpenses(s).Failure? ==> CalculateTotalExpenses(s).error == IndexOutOfRange
  {
    IncomeListingTotal(s);
    SortByValueKeepsSum(MonthlyCapEx(s.capitalExpenditures).value);
    var items := ExpenseItems(s, IncomeTotal(s), CapExTotal(s));
    assert CalculateTotalExpenses(s) == SortByValue(Names(items), Values(items));
  }

  /** get_cash_flow: income minus expenses, per month. */
  function CashFlow(s: BalanceSheet): (r: Result<real>)
    ensures r.Failure? <==> CalculateTotalExpenses(s).Failure?
    ensures r.Failure? ==> r.error == CalculateTotalExpenses(s).error
  {
    NetOf(CalculateTotalIncome(s), CalculateTotalExpenses(s))
  }

  /** The income total less the expense total, or the first failure. */
  function NetOf(income: Result<Listing>, expenses: Result<Listing>): Result<real>
  {
    var incomeListing :- income;
    var expenseListing :- expenses;
    Success(Sum(incomeListing.values) - Sum(expenseListing.values))
  }

  /** The sorting is for display only: the cash flow is the plain total of
      the non-zero income less the plain total of the expense items. */
  lemma CashFlowIgnoresOrder(s: BalanceSheet)
    requires CashFlow(s).Success?
    ensures !CapExDividesByZero(s.capitalExpenditures)
    ensures CashFlow(s).value == IncomeTotal(s) - Sum(Values(ExpenseItems(s, IncomeTotal(s), CapExTotal(s))))
  {
    IncomeListingTotal(s);
    ExpenseListingTotal(s);
  }

  /** get_total_one_time_costs: every entry counts, zero or not. */
  function TotalOneTimeCosts(s: BalanceSheet): real
  {
    Sum(Values(s.oneTimeCosts))
  }

  /** Calling an attribute of the sheet by its Python name with no
      arguments, where the caller wants a number. `get_cash_flow` and
      `get_total_one_time_costs` give one; any other name the class defines
      gives none (None: another method's result, or a TypeError); a name it
      does not define raises AttributeError. */
  function CallByName(s: BalanceSheet, name: string): (r: Result<Option<real>>)
    ensures !Defined(name) ==> r == Failure(MissingAttribute)
    ensures name == "get_cash_flow" ==>
              r == if CashFlow(s).Success? then Success(Some(CashFlow(s).value)) else Failure(CashFlow(s).error)
    ensures name == "get_total_one_time_costs" ==> r == Success(Some(TotalOneTimeCosts(s)))
    ensures name in AttributeNames || name in MethodNames ==>
              name == "get_cash_flow" || name == "get_total_one_time_costs" || r == Success(None)
  {
    match GetAttribute(s, name)
    case Failure(e) => Failure(e)
    case Success(Method(m)) =>
      if m == "get_cash_flow" then
        match CashFlow(s)
        case Success(cashFlow) => Success(Some(cashFlow))
        case Failure(e) => Failure(e)
      else if m == "get_total_one_time_costs" then Success(Some(TotalOneTimeCosts(s)))
      else Success(None)
    case Success(_) => Success(None)
  }

  /** Twelve months of cash flow over the total investment. numpy divides a
      float64 by zero without raising, giving inf or nan, which is not a real
      number. */
  function Roi(monthlyCashFlow: real, totalInvestment: real): (r: Result<real>)
    ensures r.Failure? <==> totalInvestment == 0.0
    ensures r.Failure? ==> r.error == NonFinite
    ensures r.Success? ==> r.value * totalInvestment == 12.0 * monthlyCashFlow
  {
    if totalInvestment == 0.0 then Failure(NonFinite)
    else
      var annualCashFlow := 12.0 * monthlyCashFlow;
      assert annualCashFlow / totalInvestment * totalInvestment == annualCashFlow;
      Success(annualCashFlow / totalInvestment)
  }

  /** The annual return on investment of print_statement. */
  function AnnualRoi(s: BalanceSheet): (r: Result<real>)
    ensures r.Failure? <==> CashFlow(s).Failure? || TotalOneTimeCosts(s) == 0.0
    ensures CashFlow(s).Success? && TotalOneTimeCosts(s) == 0.0 ==> r == Failure(NonFinite)
    ensures CashFlow(s).Success? ==> r == Roi(CashFlow(s).value, TotalOneTimeCosts(s))
  {
    var cashFlow :- CashFlow(s);
    Roi(cashFlow, TotalOneTimeCosts(s))
  }

  /** The income listing holds exactly the non-zero income entries. */
  lemma TotalIncomeListsNonZeroEntries(s: BalanceSheet, e: Entry<real>)
    requires CalculateTotalIncome(s).Success?
    ensures e in Pairs(CalculateTotalIncome(s).value) <==> e in s.monthlyIncome && e.value != 0.0
  {
    StableSortKeepsEntries(Pairs(CalculateTotalIncome(s).value), NonZero(s.monthlyIncome), e);
  }

  /** A non-zero monthly expense is listed among the expenses with its value;
      in particular the mortgage payment, while it is not zero. */
  lemma MonthlyExpenseIsListed(s: BalanceSheet, name: string, amount: real)
    requires CalculateTotalExpenses(s).Success?
    requires Lookup(s.monthlyExpenses, name) == Some(amount) && amount != 0.0
    ensures Entry(name, amount) in Pairs(CalculateTotalExpenses(s).value)
  {
    var items := ExpenseItems(s, IncomeTotal(s), CapExTotal(s));
    assert Entry(name, amount) in NonZero(s.monthlyExpenses);
    assert Entry(name, amount) in items;
    StableSortKeepsEntries(Pairs(CalculateTotalExpenses(s).value), items, Entry(name, amount));
  }

  /** The derived figures read the income only through its non-zero entries. */
  lemma IncomeCongruence(s: BalanceSheet, t: BalanceSheet)
    requires NonZero(s.monthlyIncome) == NonZero(t.monthlyIncome)
    ensures CalculateTotalIncome(s) == CalculateTotalIncome(t)
    ensures IncomeTotal(s) == IncomeTotal(t)
  {
  }

  /** The capital-expenditure listing and the expense items agree on two
      sheets with the same capital expenditures and non-zero expenses. */
  lemma ExpenseItemsCongruence(s: BalanceSheet, t: BalanceSheet, incomeTotal: real, capExTotal: real)
    requires NonZero(s.annualExpenses) == NonZero(t.annualExpenses)
    requires NonZero(s.monthlyExpenses) == NonZero(t.monthlyExpenses)
    requires NonZero(s.expensesProportionalToRent) == NonZero(t.expensesProportionalToRent)
    ensures ExpenseItems(s, incomeTotal, capExTotal) == ExpenseItems(t, incomeTotal, capExTotal)
  {
  }

  /** The expense figures read the mappings only through their non-zero
      entries, and the capital expenditures as they are. */
  lemma ExpensesCongruence(s: BalanceSheet, t: BalanceSheet)
    requires NonZero(s.monthlyIncome) == NonZero(t.monthlyIncome)
    requires NonZero(s.annualExpenses) == NonZero(t.annualExpenses)
    requires NonZero(s.monthlyExpenses) == NonZero(t.monthlyExpenses)
    requires NonZero(s.expensesProportionalToRent) == NonZero(t.expensesProportionalToRent)
    requires s.capitalExpenditures == t.capitalExpenditures
    ensures CalculateTotalExpenses(s) == CalculateTotalExpenses(t)
  {
    IncomeCongruence(s, t);
    var income := CalculateTotalIncome(s);
    var capEx := CalculateMonthlyCapitalExpenditures(s);
    assert capEx == CalculateMonthlyCapitalExpenditures(t) by {
      assert MonthlyCapEx(s.capitalExpenditures) == MonthlyCapEx(t.capitalExpenditures);
    }
    if income.Success? && capEx.Success? {
      ExpenseItemsCongruence(s, t, Sum(income.value.values), Sum(capEx.value.values));
    }
  }

  /** Cash flow depends on the sheet only through the two listings. */
  lemma CashFlowCongruence(s: BalanceSheet, t: BalanceSheet)
    requires CalculateTotalIncome(s) == CalculateTotalIncome(t)
    requires CalculateTotalExpenses(s) == CalculateTotalExpenses(t)
    ensures CashFlow(s) == CashFlow(t)
  {
  }

  /** Adding a zero income under a new name (or over a zero one) changes none
      of the derived figures. */
  lemma IncomeIgnoresZeroEntry(s: BalanceSheet, name: string)
    requires Valid(s)
    requires Lookup(s.monthlyIncome, name) == None || Lookup(s.monthlyIncome, name) == Some(0.0)
    ensures var s' := AddMonthlyIncome(s, [Entry(name, 0.0)]);
      && CalculateTotalIncome(s') == CalculateTotalIncome(s)
      && CalculateTotalExpenses(s') == CalculateTotalExpenses(s)
      && CashFlow(s') == CashFlow(s)
  {
    PutZeroKeepsNonZero(s.monthlyIncome, name);
    var s' := AddMonthlyIncome(s, [Entry(name, 0.0)]);
    IncomeCongruence(s', s);
    ExpensesCongruence(s', s);
    CashFlowCongruence(s', s);
  }

  /** The same for a zero annual expense. */
  lemma AnnualExpensesIgnoreZeroEntry(s: BalanceSheet, name: string)
    requires Valid(s)
    requires Lookup(s.annualExpenses, name) == None || Lookup(s.annualExpenses, name) == Some(0.0)
    ensures var s' := AddAnnualExpenses(s, [Entry(name, 0.0)]);
      CalculateTotalExpenses(s') == CalculateTotalExpenses(s) && CashFlow(s') == CashFlow(s)
  {
    PutZeroKeepsNonZero(s.annualExpenses, name);
    var s' := AddAnnualExpenses(s, [Entry(name, 0.0)]);
    ExpensesCongruence(s', s);
    IncomeCongruence(s', s);
    CashFlowCongruence(s', s);
  }

  /** The same for a zero monthly expense. */
  lemma MonthlyExpensesIgnoreZeroEntry(s: BalanceSheet, name: string)
    requires Valid(s)
    requires Lookup(s.monthlyExpenses, name) == None || Lookup(s.monthlyExpenses, name) == Some(0.0)
    ensures var s' := AddMonthlyExpenses(s, [Entry(name, 0.0)]);
      CalculateTotalExpenses(s') == CalculateTotalExpenses(s) && CashFlow(s') == CashFlow(s)
  {
    PutZeroKeepsNonZero(s.monthlyExpenses, name);
    var s' := AddMonthlyExpenses(s, [Entry(name, 0.0)]);
    ExpensesCongruence(s', s);
    IncomeCongruence(s', s);
    CashFlowCongruence(s', s);
  }

  /** The same for a zero fraction of the rent. */
  lemma ProportionalExpensesIgnoreZeroEntry(s: BalanceSheet, name: string)
    requires Valid(s)
    requires Lookup(s.expensesProportionalToRent, name) == None
             || Lookup(s.expensesProportionalToRent, name) == Some(0.0)
    ensures var s' := AddExpensesProportionalToRent(s, [Entry(name, 0.0)]);
      CalculateTotalExpenses(s') == CalculateTotalExpenses(s) && CashFlow(s') == CashFlow(s)
  {
    PutZeroKeepsNonZero(s.expensesProportionalToRent, name);
    var s' := AddExpensesProportionalToRent(s, [Entry(name, 0.0)]);
    ExpensesCongruence(s', s);
    IncomeCongruence(s', s);
    CashFlowCongruence(s', s);
  }

  /** Adding costs under new names adds their sum to the total investment. */
  lemma OneTimeCostsAddUp(s: BalanceSheet, costs: Dict<real>)
    requires Valid(s) && UniqueNames(costs)
    requires forall i :: 0 <= i < |costs| ==> costs[i].name !in Names(s.oneTimeCosts)
    ensures TotalOneTimeCosts(AddOneTimeCosts(s, costs)) == TotalOneTimeCosts(s) + Sum(Values(costs))
  {
    UpdateWithNewNames(s.oneTimeCosts, costs);
    assert AddOneTimeCosts(s, costs).oneTimeCosts == s.oneTimeCosts + costs;
    ValuesAppend(s.oneTimeCosts, costs);
    SumAppend(Values(s.oneTimeCosts), Values(costs));
  }

  /** Adding a cost under a name already present replaces its old amount in
      the total investment. */
  lemma OneTimeCostReplaced(s: BalanceSheet, name: string, v: real)
    requires Valid(s) && name in Names(s.oneTimeCosts)
    ensures TotalOneTimeCosts(AddOneTimeCosts(s, [Entry(name, v)]))
            == TotalOneTimeCosts(s) - Lookup(s.oneTimeCosts, name).value + v
  {
    var one := [Entry(name, v)];
    assert one[1..] == [];
    assert Update(s.oneTimeCosts, one) == Update(Put(s.oneTimeCosts, name, v), []);
    assert AddOneTimeCosts(s, [Entry(name, v)]).oneTimeCosts == Put(s.oneTimeCosts, name, v);
    PutSum(s.oneTimeCosts, name, v);
  }
}

=== FILE: dicts.dfy ===
/** Python dictionaries with string keys, as insertion-ordered association
    lists: a name occurs at most once, assignment to an existing name keeps its
    position, a new name goes to the end. */
module Dicts {
  import opened Results

  datatype Entry<V> = Entry(name: string, value: V)

  type Dict<V> = seq<Entry<V>>

  function Names<V>(d: Dict<V>): (r: seq<string>)
    ensures |r| == |d|
    ensures forall i :: 0 <= i < |d| ==> r[i] == d[i].name
  {
    if d == [] then [] else [d[0].name] + Names(d[1..])
  }

  function Values<V>(d: Dict<V>): (r: seq<V>)
    ensures |r| == |d|
    ensures forall i :: 0 <= i < |d| ==> r[i] == d[i].value
  {
    if d == [] then [] else [d[0].value] + Values(d[1..])
  }

  /** The invariant every Python dict keeps. */
  ghost predicate UniqueNames<V>(d: Dict<V>)
  {
    forall i, j :: 0 <= i < j < |d| ==> d[i].name != d[j].name
  }

  /** `d.get(k)`. */
  function Lookup<V>(d: Dict<V>, k: string): (r: Option<V>)
    ensures r.None? <==> k !in Names(d)
    ensures r.Some? ==> Entry(k, r.value) in d
  {
    if d == [] then None
    else if d[0].name == k then Some(d[0].value)
    else Lookup(d[1..], k)
  }

  /** `d[k] = v`: overwrite in place, or append a new entry. */
  function Put<V>(d: Dict<V>, k: string, v: V): (r: Dict<V>)
    ensures k in Names(d) ==> |r| == |d|
    ensures k !in Names(d) ==> r == d + [Entry(k, v)]
    ensures forall i :: 0 <= i < |d| ==> r[i].name == d[i].name
  {
    if d == [] then [Entry(k, v)]
    else if d[0].name == k then [Entry(k, v)] + d[1..]
    else [d[0]] + Put(d[1..], k, v)
  }

  /** After `d[k] = v`, `k` maps to `v` and every other name to what it did. */
  lemma {:induction false} PutLookup<V>(d: Dict<V>, k: string, v: V, k': string)
    ensures Lookup(Put(d, k, v), k') == if k' == k then Some(v) else Lookup(d, k')
  {
    if d != [] && d[0].name != k {
      assert Put(d, k, v)[1..] == Put(d[1..], k, v);
      PutLookup(d[1..], k, v, k');
    }
  }

  lemma {:induction false} PutKeepsUnique<V>(d: Dict<V>, k: string, v: V)
    requires UniqueNames(d)
    ensures UniqueNames(Put(d, k, v))
  {
    var r := Put(d, k, v);
    if k !in Names(d) {
      forall i, j | 0 <= i < j < |r|
        ensures r[i].name != r[j].name
      {
        if j == |d| {
          assert d[i].name in Names(d);
        }
      }
    }
  }

  /** The names of `e` that `d` does not have yet, in `e`'s order. */
  function NewNames<V>(d: Dict<V>, e: Dict<V>): seq<string>
  {
    if e == [] then []
    else (if e[0].name in Names(d) then [] else [e[0].name]) + NewNames(d, e[1..])
  }

  /** `d.update(e)`: assign every entry of `e` in `e`'s order. */
  function Update<V>(d: Dict<V>, e: Dict<V>): Dict<V>
    decreases |e|
  {
    if e == [] then d else Update(Put(d, e[0].name, e[0].value), e[1..])
  }

  /** `r` is `d` merged with `e` the way dict.update merges: `d`'s names keep
      their places, `e`'s new names follow in `e`'s order, `e`'s values win,
      and every name `e` does not mention keeps its value from `d`. */
  ghost predicate MergedInto<V>(d: Dict<V>, e: Dict<V>, r: Dict<V>)
  {
    && UniqueNames(r)
    && |d| <= |r|
    && (forall i :: 0 <= i < |d| ==> r[i].name == d[i].name)
    && Names(r)[|d|..] == NewNames(d, e)
    && (forall k :: k in Names(e) ==> Lookup(r, k) == Lookup(e, k))
    && (forall k :: k !in Names(e) ==> Lookup(r, k) == Lookup(d, k))
  }

  lemma PutNames<V>(d: Dict<V>, k: string, v: V, k': string)
    ensures k' in Names(Put(d, k, v)) <==> k' in Names(d) || k' == k
  {
    PutLookup(d, k, v, k');
  }

  lemma {:induction false} NewNamesAfterPut<V>(d: Dict<V>, x: string, v: V, e: Dict<V>)
    requires x !in Names(e)
    ensures NewNames(Put(d, x, v), e) == NewNames(d, e)
  {
    if e != [] {
      assert e[0].name == Names(e)[0];
      assert Names(e[1..]) == Names(e)[1..];
      PutNames(d, x, v, e[0].name);
      NewNamesAfterPut(d, x, v, e[1..]);
    }
  }

  lemma HeadNameIsUnique<V>(e: Dict<V>)
    requires UniqueNames(e) && e != []
    ensures e[0].name !in Names(e[1..]) && UniqueNames(e[1..])
  {
  }

  lemma {:induction false} UpdateLookup<V>(d: Dict<V>, e: Dict<V>, k: string)
    requires UniqueNames(e)
    ensures Lookup(Update(d, e), k) == if k in Names(e) then Lookup(e, k) else Lookup(d, k)
    decreases |e|
  {
    if e != [] {
      var x := e[0];
      HeadNameIsUnique(e);
      PutLookup(d, x.name, x.value, k);
      UpdateLookup(Put(d, x.name, x.value), e[1..], k);
      assert Names(e) == [x.name] + Names(e[1..]);
    }
  }

  lemma {:induction false} UpdateKeepsPrefix<V>(d: Dict<V>, e: Dict<V>)
    requires UniqueNames(d) && UniqueNames(e)
    ensures var r := Update(d, e);
      && UniqueNames(r)
      && |d| <= |r|
      && (forall i :: 0 <= i < |d| ==> r[i].name == d[i].name)
    decreases |e|
  {
    if e != [] {
      var x := e[0];
      var d1 := Put(d, x.name, x.value);
      HeadNameIsUnique(e);
      PutKeepsUnique(d, x.name, x.value);
      UpdateKeepsPrefix(d1, e[1..]);
    }
  }

  lemma {:induction false} UpdateAppendsNewNames<V>(d: Dict<V>, e: Dict<V>)
    requires UniqueNames(d) && UniqueNames(e)
    ensures |d| <= |Update(d, e)|
    ensures Names(Update(d, e))[|d|..] == NewNames(d, e)
    decreases |e|
  {
    var r := Update(d, e);
    if e == [] {
      assert Names(r)[|d|..] == [];
    } else {
      var x, e' := e[0], e[1..];
      var d1 := Put(d, x.name, x.value);
      assert r == Update(d1, e');
      assert UniqueNames(d1) && UniqueNames(e') && x.name !in Names(e') by {
        HeadNameIsUnique(e);
        PutKeepsUnique(d, x.name, x.value);
      }
      UpdateAppendsNewNames(d1, e');
      NewNamesAfterPut(d, x.name, x.value, e');
      if x.name in Names(d) {
        calc {
          Names(r)[|d|..];
          { assert |d1| == |d|; }
          Names(r)[|d1|..];
          NewNames(d, e');
          NewNames(d, e);
        }
      } else {
        assert |d1| == |d| + 1;
        assert Names(r)[|d|] == x.name by {
          UpdateKeepsPrefix(d1, e');
          assert d1[|d|] == x;
        }
        calc {
          Names(r)[|d|..];
          { SliceCons(Names(r), |d|); }
          [x.name] + Names(r)[|d1|..];
          [x.name] + NewNames(d, e');
          NewNames(d, e);
        }
      }
    }
  }

  lemma SliceCons<T>(s: seq<T>, i: int)
    requires 0 <= i < |s|
    ensures s[i..] == [s[i]] + s[i + 1..]
  {
  }

  /** dict.update merges as `MergedInto` describes. */
  lemma UpdateMerges<V>(d: Dict<V>, e: Dict<V>)
    requires UniqueNames(d) && UniqueNames(e)
    ensures MergedInto(d, e, Update(d, e))
  {
    UpdateKeepsPrefix(d, e);
    UpdateAppendsNewNames(d, e);
    forall k
      ensures Lookup(Update(d, e), k) == if k in Names(e) then Lookup(e, k) else Lookup(d, k)
    {
      UpdateLookup(d, e, k);
    }
  }

  lemma AppendHead<T>(a: seq<T>, b: seq<T>)
    requires b != []
    ensures (a + [b[0]]) + b[1..] == a + b
  {
    assert b == [b[0]] + b[1..];
  }

  /** When every name of `e` is new, update is concatenation. */
  lemma {:induction false} UpdateWithNewNames<V>(d: Dict<V>, e: Dict<V>)
    requires UniqueNames(e)
    requires forall i :: 0 <= i < |e| ==> e[i].name !in Names(d)
    ensures Update(d, e) == d + e
    decreases |e|
  {
    if e != [] {
      var x, e' := e[0], e[1..];
      var d1 := d + [x];
      assert Update(d, e) == Update(d1, e') by {
        assert x.name !in Names(d);
        assert Put(d, x.name, x.value) == d1;
      }
      assert forall i :: 0 <= i < |e'| ==> e'[i].name !in Names(d1) by {
        forall i | 0 <= i < |e'|
          ensures e'[i].name !in Names(d1)
        {
          assert e'[i] == e[i + 1];
          assert Names(d1) == Names(d) + [x.name];
          assert e[i + 1].name !in Names(d) && e[i + 1].name != x.name;
        }
      }
      assert UniqueNames(e') by {
        HeadNameIsUnique(e);
      }
      UpdateWithNewNames(d1, e');
      AppendHead(d, e);
    }
  }

  /** Assigning a name the value it already has changes nothing. */
  lemma {:induction false} PutSameValue<V>(d: Dict<V>, k: string, v: V)
    requires UniqueNames(d) && Lookup(d, k) == Some(v)
    ensures Put(d, k, v) == d
  {
    if d[0].name != k {
      PutSameValue(d[1..], k, v);
    }
  }

  lemma {:induction false} ValuesAppend<V>(a: Dict<V>, b: Dict<V>)
    ensures Values(a + b) == Values(a) + Values(b)
  {
    if a == [] {
      assert a + b == b;
    } else {
      assert (a + b)[1..] == a[1..] + b;
      ValuesAppend(a[1..], b);
    }
  }

  function Sum(xs: seq<real>): real
  {
    if xs == [] then 0.0 else xs[0] + Sum(xs[1..])
  }

  /** `d[k] = v` on a name already present swaps its old value for `v` in the
      sum of the values. */
  lemma {:induction false} PutSum(d: Dict<real>, k: string, v: real)
    requires k in Names(d)
    ensures Sum(Values(Put(d, k, v))) == Sum(Values(d)) - Lookup(d, k).value + v
  {
    var r := Put(d, k, v);
    assert Values(d)[1..] == Values(d[1..]);
    assert Values(r)[1..] == Values(r[1..]);
    if d[0].name != k {
      assert k in Names(d[1..]);
      PutSum(d[1..], k, v);
    }
  }

  lemma {:induction false} SumAppend(xs: seq<real>, ys: seq<real>)
    ensures Sum(xs + ys) == Sum(xs) + Sum(ys)
  {
    if xs == [] {
      assert xs + ys == ys;
    } else {
      assert (xs + ys)[1..] == xs[1..] + ys;
      SumAppend(xs[1..], ys);
    }
  }

  /** The entries whose value is not zero, in order: the `if v == 0: continue`
      filter of the totals. */
  function NonZero(d: Dict<real>): (r: Dict<real>)
    ensures |r| <= |d|
    ensures forall e :: e in r <==> e in d && e.value != 0.0
  {
    if d == [] then []
    else (if d[0].value != 0.0 then [d[0]] else []) + NonZero(d[1..])
  }

  lemma {:induction false} NonZeroAppend(a: Dict<real>, b: Dict<real>)
    ensures NonZero(a + b) == NonZero(a) + NonZero(b)
  {
    if a == [] {
      assert a + b == b;
    } else {
      assert (a + b)[1..] == a[1..] + b;
      NonZeroAppend(a[1..], b);
    }
  }

  /** Assigning zero to a name that is absent or already zero leaves the
      non-zero entries as they were. */
  lemma PutZeroKeepsNonZero(d: Dict<real>, k: string)
    requires UniqueNames(d)
    requires Lookup(d, k) == None || Lookup(d, k) == Some(0.0)
    ensures NonZero(Update(d, [Entry(k, 0.0)])) == NonZero(d)
  {
    assert Update(d, [Entry(k, 0.0)]) == Put(d, k, 0.0);
    if Lookup(d, k) == None {
      NonZeroAppend(d, [Entry(k, 0.0)]);
    } else {
      PutSameValue(d, k, 0.0);
    }
  }

  /** Apply `f` to every value, keeping names and order. */
  function MapValues(d: Dict<real>, f: real -> real): (r: Dict<real>)
    ensures |r| == |d|
    ensures forall i :: 0 <= i < |d| ==> r[i] == Entry(d[i].name, f(d[i].value))
  {
    if d == [] then [] else [Entry(d[0].name, f(d[0].value))] + MapValues(d[1..], f)
  }
}

=== FILE: investment_properties.dfy ===
/** The `investment_property` class: a property bought with a loan, whose
    value compounds at a fixed annual appreciation rate and whose equity is
    that value less the remaining debt. The class exists twice, once without
    a balance sheet (property_and_mortgage.py) and once with one
    (investment_property.py); both share the formulas and `calculate_all`,
    so one datatype with an optional balance sheet models both. */
module InvestmentProperties {
  import opened Results
  import opened Powers
  import opened Mortgages
  import opened Dicts
  import opened BalanceSheets
  import opened Projection

  datatype InvestmentProperty = InvestmentProperty(
    loan: LoanView,
    sheet: Option<BalanceSheet>,
    initialValue: real,
    appreciationRate: real)

  /** get_property_value_at_year: V0 * (1 + a) ** year. */
  function ValueAtYear(p: InvestmentProperty, year: real, pow: RealPow): real
  {
    p.initialValue * pow(1.0 + p.appreciationRate, year)
  }

  /** get_property_value_at_month: the year view at month / 12. */
  function ValueAtMonth(p: InvestmentProperty, month: real, pow: RealPow): real
  {
    ValueAtYear(p, month / 12.0, pow)
  }

  /** calculate_equity_at_year: value less the remaining debt. */
  function EquityAtYear(p: InvestmentProperty, year: real, extraAnnual: real, pow: RealPow): real
  {
    ValueAtYear(p, year, pow) - p.loan.debtAtYear(year, extraAnnual)
  }

  /** calculate_equity_at_month: value less the remaining debt, by month. */
  function EquityAtMonth(p: InvestmentProperty, month: real, extraMonthly: real, pow: RealPow): real
  {
    ValueAtMonth(p, month, pow) - p.loan.debtAtMonth(month, extraMonthly)
  }

  /** At the purchase the property is worth what was paid for it. */
  lemma ValueAtPurchase(p: InvestmentProperty, pow: RealPow)
    requires ExtendsPow(pow)
    ensures ValueAtYear(p, 0.0, pow) == p.initialValue
  {
    PowAt(pow, 1.0 + p.appreciationRate, 0);
  }

  /** Each whole year multiplies the value by 1 + a. */
  lemma ValueRecurrence(p: InvestmentProperty, y: nat, pow: RealPow)
    requires ExtendsPow(pow)
    ensures ValueAtYear(p, (y + 1) as real, pow) == ValueAtYear(p, y as real, pow) * (1.0 + p.appreciationRate)
  {
    PowAt(pow, 1.0 + p.appreciationRate, y + 1);
    PowAt(pow, 1.0 + p.appreciationRate, y);
    PowAdd(1.0 + p.appreciationRate, y, 1);
  }

  /** On whole years the value is V0 grown by 1 + a once per year. */
  lemma ValueAtWholeYear(p: InvestmentProperty, y: nat, pow: RealPow)
    requires ExtendsPow(pow)
    ensures ValueAtYear(p, y as real, pow) == p.initialValue * Pow(1.0 + p.appreciationRate, y)
  {
    PowAt(pow, 1.0 + p.appreciationRate, y);
  }

  lemma ScaleProduct(v: real, a: real, b: real, ab: real)
    requires ab == a * b
    ensures v * ab == (v * a) * b
  {
  }

  /** Whole years compound: the value after y + k years is the value after
      y years grown for k more. */
  lemma ValueCompounds(p: InvestmentProperty, y: nat, k: nat, pow: RealPow)
    requires ExtendsPow(pow)
    ensures ValueAtYear(p, (y + k) as real, pow) == ValueAtYear(p, y as real, pow) * Pow(1.0 + p.appreciationRate, k)
  {
    var g := 1.0 + p.appreciationRate;
    PowSplits(pow, g, y, k);
    ScaleProduct(p.initialValue, pow(g, y as real), Pow(g, k), pow(g, (y + k) as real));
  }

  /** Every twelfth month the month view agrees with the whole-year value. */
  lemma ValueAtWholeYearMonth(p: InvestmentProperty, y: nat, pow: RealPow)
    requires ExtendsPow(pow)
    ensures ValueAtMonth(p, (12 * y) as real, pow) == p.initialValue * Pow(1.0 + p.appreciationRate, y)
  {
    assert (12 * y) as real / 12.0 == y as real;
    PowAt(pow, 1.0 + p.appreciationRate, y);
  }

  /** The month view of equity is the year view at month / 12 with twelve
      times the monthly extra payment, when the loan's month view delegates
      the same way. */
  lemma EquityAtMonthDelegates(p: InvestmentProperty, month: real, extraMonthly: real, pow: RealPow)
    requires MonthDelegatesToYear(p.loan)
    ensures EquityAtMonth(p, month, extraMonthly, pow) == EquityAtYear(p, month / 12.0, 12.0 * extraMonthly, pow)
  {
  }

  /** At the purchase the equity is the value less the principal, whatever
      extra payment is planned. */
  lemma EquityAtPurchase(p: InvestmentProperty, m: Mortgage, extraAnnual: real, pow: RealPow)
    requires DebtDefined(m, pow) && BackedBy(p.loan, m, pow) && ExtendsPow(pow)
    ensures EquityAtYear(p, 0.0, extraAnnual, pow) == p.initialValue - m.principal
  {
    ValueAtPurchase(p, pow);
    DebtAtStartIsPrincipal(m, extraAnnual, pow);
  }

  /** With no extra payment, at the end of the term the equity is the whole
      value. */
  lemma EquityAtPayoff(p: InvestmentProperty, m: Mortgage, pow: RealPow)
    requires DebtDefined(m, pow) && BackedBy(p.loan, m, pow)
    ensures EquityAtYear(p, m.termYears, 0.0, pow) == ValueAtYear(p, m.termYears, pow)
  {
    DebtAtTermIsZero(m, pow);
  }

  /** On whole years the equity is the compounded value less the balance of
      the year-by-year repayment schedule. */
  lemma EquityAtWholeYear(p: InvestmentProperty, m: Mortgage, y: nat, extraAnnual: real, pow: RealPow)
    requires DebtDefined(m, pow) && BackedBy(p.loan, m, pow) && ExtendsPow(pow)
    ensures EquityAtYear(p, y as real, extraAnnual, pow)
            == p.initialValue * Pow(1.0 + p.appreciationRate, y)
               - ScheduledDebt(m.principal, 1.0 + m.annualRate, AnnualPayment(m, pow) + extraAnnual, y)
  {
    ValueAtWholeYear(p, y, pow);
    ClosedFormMatchesSchedule(m, y, extraAnnual, pow);
  }

  /** At month 12 * y the equity is the compounded value after y years less
      the schedule's balance after y years, with twelve times the monthly
      extra payment as the annual one. */
  lemma EquityAtWholeYearMonth(p: InvestmentProperty, m: Mortgage, y: nat, extraMonthly: real, pow: RealPow)
    requires DebtDefined(m, pow) && BackedBy(p.loan, m, pow) && ExtendsPow(pow)
    ensures EquityAtMonth(p, (12 * y) as real, extraMonthly, pow)
            == p.initialValue * Pow(1.0 + p.appreciationRate, y)
               - ScheduledDebt(m.principal, 1.0 + m.annualRate, AnnualPayment(m, pow) + 12.0 * extraMonthly, y)
  {
    ValueAtWholeYearMonth(p, y, pow);
    DebtAtMonthFollowsSchedule(m, y, extraMonthly, pow);
  }

  /** Paying more each year leaves strictly more equity after any whole
      number of years. */
  lemma EquityIncreasesWithExtraPayment(p: InvestmentProperty, m: Mortgage, y: nat, extra1: real, extra2: real, pow: RealPow)
    requires DebtDefined(m, pow) && BackedBy(p.loan, m, pow) && ExtendsPow(pow)
    requires m.annualRate > 0.0 && y >= 1 && extra1 < extra2
    ensures EquityAtYear(p, y as real, extra1, pow) < EquityAtYear(p, y as real, extra2, pow)
  {
    DebtDecreasesWithExtraPaymentWholeYears(m, y, extra1, extra2, pow);
  }

  /** calculate_all over the property's loan and value curves. */
  method CalculateAll(p: InvestmentProperty, extraMonthly: real, pow: RealPow)
    returns (s: Series, paidOffYears: real)
    ensures |s.months| == |s.debts| == |s.equities| == |s.payments| == |s.values| == MonthCount(p.loan.termYears)
    ensures forall i :: 0 <= i < |s.months| ==> s.months[i] == i
    ensures forall i :: 0 <= i < |s.values| ==> s.values[i] == ValueAtMonth(p, i as real, pow)
    ensures forall i :: 0 <= i < |s.debts| ==> s.debts[i] == ClampedDebt(p.loan.debtAtMonth(i as real, extraMonthly))
    ensures forall i :: 0 <= i < |s.equities| ==>
              s.equities[i] == ClampedEquity(EquityAtMonth(p, i as real, extraMonthly, pow), s.values[i])
    ensures forall i :: 0 <= i < |s.equities| ==> s.equities[i] == s.values[i] - s.debts[i] <= s.values[i]
    ensures forall i :: 0 <= i < |s.payments| ==>
              s.payments[i] == PaymentFor(p.loan.debtAtMonth(i as real, extraMonthly), p.loan.monthlyPayment + extraMonthly)
    ensures paidOffYears * 12.0
            == LastMonthWithDebt(i => p.loan.debtAtMonth(i as real, extraMonthly), MonthCount(p.loan.termYears)) as real
  {
    var debtAt := (i: int) => p.loan.debtAtMonth(i as real, extraMonthly);
    var valueAt := (i: int) => ValueAtMonth(p, i as real, pow);
    s, paidOffYears := Project(p.loan.termYears, p.loan.monthlyPayment, extraMonthly, debtAt, valueAt);
  }

  /** calculate_all for a property bought with a concrete mortgage over a
      whole number of years, with a non-negative extra payment: the payment
      stops exactly when the debt is gone, at every year boundary the
      recorded debt is the annual schedule's balance, and once it is zero at
      a year boundary it stays zero, with equity equal to value, at every
      later one. */
  method ProjectMortgage(p: InvestmentProperty, m: Mortgage, n: nat, extraMonthly: real, pow: RealPow)
    returns (s: Series, paidOffYears: real)
    requires ExtendsPow(pow) && m.termYears == n as real && n >= 1
    requires m.principal > 0.0 && m.annualRate > 0.0 && extraMonthly >= 0.0
    requires DebtDefined(m, pow) && BackedBy(p.loan, m, pow)
    ensures |s.debts| == |s.equities| == |s.payments| == |s.values| == 12 * n
    ensures forall i :: 0 <= i < |s.payments| ==>
              (s.payments[i] == 0.0 <==> DebtAtMonth(m, i as real, extraMonthly, pow) <= 0.0)
    ensures forall y: nat :: y < n ==>
              s.debts[12 * y] == ClampedDebt(ScheduledDebt(m.principal, 1.0 + m.annualRate,
                                                           AnnualPayment(m, pow) + 12.0 * extraMonthly, y))
    ensures forall y: nat, y': nat :: y <= y' < n && s.debts[12 * y] == 0.0 ==>
              s.debts[12 * y'] == 0.0 && s.equities[12 * y'] == s.values[12 * y']
  {
    AnnualPaymentPositive(m, n, pow);
    assert MonthCount(p.loan.termYears) == 12 * n by {
      assert 12.0 * p.loan.termYears == (12 * n) as real;
    }
    s, paidOffYears := CalculateAll(p, extraMonthly, pow);
    var z, payment := 1.0 + m.annualRate, AnnualPayment(m, pow) + 12.0 * extraMonthly;
    forall y: nat | y < n
      ensures s.debts[12 * y] == ClampedDebt(ScheduledDebt(m.principal, z, payment, y))
    {
      DebtAtMonthFollowsSchedule(m, y, extraMonthly, pow);
    }
    forall y: nat, y': nat | y <= y' < n && s.debts[12 * y] == 0.0
      ensures s.debts[12 * y'] == 0.0 && s.equities[12 * y'] == s.values[12 * y']
    {
      ScheduleStaysPaidOff(m.principal, z, payment, y, y');
    }
  }

  /** Purchase cap rate: the monthly cash flow over the purchase value. numpy
      divides a float64 by zero without raising, so a zero value gives a
      non-finite figure rather than an error. */
  function CapRate(monthlyCashFlow: real, value: real): (r: Result<real>)
    ensures r.Failure? <==> value == 0.0
    ensures r.Failure? ==> r.error == NonFinite
    ensures r.Success? ==> r.value * value == monthlyCashFlow
  {
    if value == 0.0 then Failure(NonFinite)
    else
      assert monthlyCashFlow / value * value == monthlyCashFlow;
      Success(monthlyCashFlow / value)
  }

  /** get_purchase_cap_rate, which only the class with a balance sheet has. */
  function PurchaseCapRate(p: InvestmentProperty): (r: Result<real>)
    requires p.sheet.Some?
    ensures r.Failure? <==> CashFlow(p.sheet.value).Failure? || p.initialValue == 0.0
    ensures CashFlow(p.sheet.value).Failure? ==> r == Failure(CashFlow(p.sheet.value).error)
    ensures CashFlow(p.sheet.value).Success? ==> r == CapRate(CashFlow(p.sheet.value).value, p.initialValue)
  {
    var cashFlow :- CashFlow(p.sheet.value);
    CapRate(cashFlow, p.initialValue)
  }

  /** get_purchase_cap_rate as written: it asks the sheet for
      `get_monthly_cash_flow`, a method the balance sheet does not define. */
  function PurchaseCapRateAsWritten(p: InvestmentProperty): (r: Result<real>)
    requires p.sheet.Some?
    ensures r == Failure(MissingAttribute)
  {
    match CallByName(p.sheet.value, "get_monthly_cash_flow")
    case Success(Some(cashFlow)) => CapRate(cashFlow, p.initialValue)
    case Success(None) => Failure(MissingAttribute)
    case Failure(e) => Failure(e)
  }

  /** Month `month`'s gain: its equity, plus that many months of cash flow,
      less the one-time costs. */
  function Gain(equity: real, month: nat, monthlyCashFlow: real, oneTimeCosts: real): real
  {
    equity + (month as real) * monthlyCashFlow - oneTimeCosts
  }

  /** Consecutive gains differ by the change in equity plus one month of cash
      flow. */
  lemma GainStep(e0: real, e1: real, month: nat, monthlyCashFlow: real, oneTimeCosts: real)
    ensures Gain(e1, month + 1, monthlyCashFlow, oneTimeCosts) - Gain(e0, month, monthlyCashFlow, oneTimeCosts)
            == e1 - e0 + monthlyCashFlow
  {
  }

  /** The gains arithmetic of plot_gains, applied to the equity series in place. */
  method AccumulateGains(equities: seq<real>, monthlyCashFlow: real, oneTimeCosts: real)
    returns (gains: seq<real>)
    ensures |gains| == |equities|
    ensures forall i :: 0 <= i < |gains| ==> gains[i] == Gain(equities[i], i, monthlyCashFlow, oneTimeCosts)
    ensures forall i :: 0 <= i < |gains| - 1 ==>
              gains[i + 1] - gains[i] == equities[i + 1] - equities[i] + monthlyCashFlow
  {
    gains := equities;
    var i := 0;
    while i < |gains|
      invariant 0 <= i <= |gains| == |equities|
      invariant forall j :: 0 <= j < i ==> gains[j] == Gain(equities[j], j, monthlyCashFlow, oneTimeCosts)
      invariant forall j :: i <= j < |gains| ==> gains[j] == equities[j]
    {
      gains := gains[i := gains[i] + (i as real) * monthlyCashFlow];
      gains := gains[i := gains[i] - oneTimeCosts];
      i := i + 1;
    }
    forall i | 0 <= i < |gains| - 1
      ensures gains[i + 1] - gains[i] == equities[i + 1] - equities[i] + monthlyCashFlow
    {
      GainStep(equities[i], equities[i + 1], i, monthlyCashFlow, oneTimeCosts);
    }
  }

  /** The capital gains series of plot_gains, or the failure of the cash flow
      it needs. */
  method CapitalGains(p: InvestmentProperty, extraMonthly: real, pow: RealPow)
    returns (r: Result<seq<real>>)
    requires p.sheet.Some?
    ensures r.Failure? <==> CashFlow(p.sheet.value).Failure?
    ensures r.Failure? ==> r.error == CashFlow(p.sheet.value).error
    ensures r.Success? ==> |r.value| == MonthCount(p.loan.termYears)
    ensures r.Success? ==> forall i :: 0 <= i < |r.value| ==>
              r.value[i] == Gain(ClampedEquity(EquityAtMonth(p, i as real, extraMonthly, pow), ValueAtMonth(p, i as real, pow)),
                                 i, CashFlow(p.sheet.value).value, TotalOneTimeCosts(p.sheet.value))
  {
    var s, _ := CalculateAll(p, extraMonthly, pow);
    var cashFlow := CashFlow(p.sheet.value);
    if cashFlow.Failure? {
      return Failure(cashFlow.error);
    }
    var gains := AccumulateGains(s.equities, cashFlow.value, TotalOneTimeCosts(p.sheet.value));
    r := Success(gains);
  }

  /** plot_gains as written: after building the series it asks the sheet for
      `get_monthly_cash_flow`, which the balance sheet does not define. */
  method CapitalGainsAsWritten(p: InvestmentProperty, extraMonthly: real, pow: RealPow)
    returns (r: Result<seq<real>>)
    requires p.sheet.Some?
    ensures r == Failure(MissingAttribute)
  {
    var s, _ := CalculateAll(p, extraMonthly, pow);
    var sheet := p.sheet.value;
    match CallByName(sheet, "get_monthly_cash_flow")
    case Failure(e) =>
      r := Failure(e);
    case Success(None) =>
      r := Failure(MissingAttribute);
    case Success(Some(cashFlow)) =>
      var gains := AccumulateGains(s.equities, cashFlow, TotalOneTimeCosts(sheet));
      r := Success(gains);
  }
}

=== FILE: mortgages.dfy ===
/** The `mortgage` class: a fixed-rate loan repaid in equal annual payments,
    with the remaining debt given in closed form by a geometric series. */
module Mortgages {
  import opened Results
  import opened Powers

  datatype Mortgage = Mortgage(principal: real, annualRate: real, termYears: real)

  /** (1 + r) ** years, the factor by which the debt grows in `years` years. */
  function Growth(m: Mortgage, years: real, pow: RealPow): real
  {
    pow(1.0 + m.annualRate, years)
  }

  /** The annual payment formula divides by `Growth(term) - 1`. */
  predicate PaymentDefined(m: Mortgage, pow: RealPow)
  {
    Growth(m, m.termYears, pow) != 1.0
  }

  /** The debt formula also divides by `z - 1`, i.e. by the rate. */
  predicate DebtDefined(m: Mortgage, pow: RealPow)
  {
    PaymentDefined(m, pow) && m.annualRate != 0.0
  }

  /** get_annual_payment: P * g * r / (g - 1) with g = (1 + r) ** term. */
  function AnnualPayment(m: Mortgage, pow: RealPow): real
    requires PaymentDefined(m, pow)
  {
    var g := Growth(m, m.termYears, pow);
    m.principal * g * m.annualRate / (g - 1.0)
  }

  /** get_annual_payment including its failure: a zero divisor raises. */
  function TryAnnualPayment(m: Mortgage, pow: RealPow): (r: Result<real>)
    ensures r.Failure? <==> Growth(m, m.termYears, pow) == 1.0
    ensures r.Failure? ==> r.error == DivisionByZero
    ensures r.Success? ==> r.value * (Growth(m, m.termYears, pow) - 1.0)
                           == m.principal * Growth(m, m.termYears, pow) * m.annualRate
  {
    if Growth(m, m.termYears, pow) == 1.0 then Failure(DivisionByZero)
    else Success(AnnualPayment(m, pow))
  }

  /** get_monthly_payment: one twelfth of the annual payment. */
  function MonthlyPayment(m: Mortgage, pow: RealPow): (r: real)
    requires PaymentDefined(m, pow)
    ensures 12.0 * r == AnnualPayment(m, pow)
  {
    AnnualPayment(m, pow) / 12.0
  }

  /** calculate_debt_at_year: P * z**y - payment * (z**y - 1) / (z - 1). */
  function DebtAtYear(m: Mortgage, year: real, extraAnnual: real, pow: RealPow): real
    requires DebtDefined(m, pow)
  {
    var payment := AnnualPayment(m, pow) + extraAnnual;
    var z := 1.0 + m.annualRate;
    var g := pow(z, year);
    m.principal * g - payment * ((g - 1.0) / (z - 1.0))
  }

  /** calculate_debt_at_year including its failures: both divisions raise on a
      zero divisor, the payment's one first. */
  function TryDebtAtYear(m: Mortgage, year: real, extraAnnual: real, pow: RealPow): (r: Result<real>)
    ensures r.Failure? <==> Growth(m, m.termYears, pow) == 1.0 || m.annualRate == 0.0
    ensures r.Failure? ==> r.error == DivisionByZero
    ensures r.Success? ==> r.value == DebtAtYear(m, year, extraAnnual, pow)
  {
    var payment :- TryAnnualPayment(m, pow);
    if m.annualRate == 0.0 then Failure(DivisionByZero)
    else Success(DebtAtYear(m, year, extraAnnual, pow))
  }

  /** calculate_debt_at_month: the year view at month / 12 with twelve times
      the monthly extra payment. */
  function DebtAtMonth(m: Mortgage, month: real, extraMonthly: real, pow: RealPow): real
    requires DebtDefined(m, pow)
  {
    DebtAtYear(m, month / 12.0, 12.0 * extraMonthly, pow)
  }

  /** An independent reference: the debt after `years` whole years, obtained by
      letting it grow by z and then paying `payment`, once per year. */
  function ScheduledDebt(principal: real, z: real, payment: real, years: nat): real
  {
    if years == 0 then principal else z * ScheduledDebt(principal, z, payment, years - 1) - payment
  }

  /** Once the schedule's balance is not positive it stays so: a non-positive
      balance grows to a non-positive one and the payment takes more off. */
  lemma {:induction false} ScheduleStaysPaidOff(principal: real, z: real, payment: real, y: nat, y': nat)
    requires z > 0.0 && payment > 0.0 && y <= y'
    requires ScheduledDebt(principal, z, payment, y) <= 0.0
    ensures ScheduledDebt(principal, z, payment, y') <= 0.0
  {
    if y' > y {
      ScheduleStaysPaidOff(principal, z, payment, y, y' - 1);
      var before := ScheduledDebt(principal, z, payment, y' - 1);
      assert z * before <= 0.0 by {
        assert z * (0.0 - before) >= 0.0;
      }
    }
  }

  lemma DebtAtStartIsPrincipal(m: Mortgage, extraAnnual: real, pow: RealPow)
    requires DebtDefined(m, pow) && ExtendsPow(pow)
    ensures DebtAtYear(m, 0.0, extraAnnual, pow) == m.principal
  {
    PowAt(pow, 1.0 + m.annualRate, 0);
  }

  /** Without extra payments the annual payment retires the debt exactly at
      the end of the term. */
  lemma DebtAtTermIsZero(m: Mortgage, pow: RealPow)
    requires DebtDefined(m, pow)
    ensures DebtAtYear(m, m.termYears, 0.0, pow) == 0.0
  {
    var g := Growth(m, m.termYears, pow);
    var r := m.annualRate;
    var p := m.principal;
    calc {
      DebtAtYear(m, m.termYears, 0.0, pow);
      p * g - (p * g * r / (g - 1.0)) * ((g - 1.0) / r);
      { assert (p * g * r / (g - 1.0)) * ((g - 1.0) / r) == p * g; }
      0.0;
    }
  }

  /** One more whole year: the debt grows by z and one year's payment is made. */
  lemma DebtRecurrence(m: Mortgage, y: nat, extraAnnual: real, pow: RealPow)
    requires DebtDefined(m, pow) && ExtendsPow(pow)
    ensures DebtAtYear(m, (y + 1) as real, extraAnnual, pow)
            == (1.0 + m.annualRate) * DebtAtYear(m, y as real, extraAnnual, pow)
               - (AnnualPayment(m, pow) + extraAnnual)
  {
    var z := 1.0 + m.annualRate;
    var r := m.annualRate;
    var pay := AnnualPayment(m, pow) + extraAnnual;
    PowAt(pow, z, y);
    PowAt(pow, z, y + 1);
    var g := Pow(z, y);
    assert Pow(z, y + 1) == z * g;
    var q := (g - 1.0) / r;
    assert q * r == g - 1.0;
    assert (z * q + 1.0) * r == z * g - 1.0 by {
      assert (z * q + 1.0) * r == z * (q * r) + r;
    }
    QuotientUnique(z * q + 1.0, z * g - 1.0, r);
    calc {
      z * (m.principal * g - pay * q) - pay;
      m.principal * (z * g) - pay * (z * q + 1.0);
      m.principal * (z * g) - pay * ((z * g - 1.0) / r);
    }
  }

  lemma QuotientUnique(x: real, y: real, r: real)
    requires r != 0.0 && x * r == y
    ensures x == y / r
  {
  }

  /** Any sequence that grows by `z` and then drops by `payment` each step is
      the schedule started from its first term. */
  lemma {:induction false} RecurrenceFollowsSchedule(f: nat -> real, z: real, payment: real, n: nat)
    requires forall y: nat :: f(y + 1) == z * f(y) - payment
    ensures f(n) == ScheduledDebt(f(0), z, payment, n)
  {
    if n > 0 {
      RecurrenceFollowsSchedule(f, z, payment, n - 1);
    }
  }

  /** The closed form agrees with the year-by-year schedule on whole years. */
  lemma ClosedFormMatchesSchedule(m: Mortgage, y: nat, extraAnnual: real, pow: RealPow)
    requires DebtDefined(m, pow) && ExtendsPow(pow)
    ensures DebtAtYear(m, y as real, extraAnnual, pow)
            == ScheduledDebt(m.principal, 1.0 + m.annualRate, AnnualPayment(m, pow) + extraAnnual, y)
  {
    var z, payment := 1.0 + m.annualRate, AnnualPayment(m, pow) + extraAnnual;
    var debt := (t: nat) => DebtAtYear(m, t as real, extraAnnual, pow);
    forall t: nat
      ensures debt(t + 1) == z * debt(t) - payment
    {
      DebtRecurrence(m, t, extraAnnual, pow);
    }
    DebtAtStartIsPrincipal(m, extraAnnual, pow);
    RecurrenceFollowsSchedule(debt, z, payment, y);
  }

  /** With a positive rate, once the debt has grown at all, every extra dollar
      paid per year leaves strictly less debt. */
  lemma DebtDecreasesWithExtraPayment(m: Mortgage, year: real, extra1: real, extra2: real, pow: RealPow)
    requires DebtDefined(m, pow) && m.annualRate > 0.0 && pow(1.0 + m.annualRate, year) > 1.0
    requires extra1 < extra2
    ensures DebtAtYear(m, year, extra2, pow) < DebtAtYear(m, year, extra1, pow)
  {
    var g := pow(1.0 + m.annualRate, year);
    var factor := (g - 1.0) / m.annualRate;
    assert factor > 0.0;
    var ap := AnnualPayment(m, pow);
    assert (ap + extra2) * factor > (ap + extra1) * factor;
  }

  /** The whole-year form of the monotonicity, for any year y >= 1. */
  lemma DebtDecreasesWithExtraPaymentWholeYears(m: Mortgage, y: nat, extra1: real, extra2: real, pow: RealPow)
    requires DebtDefined(m, pow) && ExtendsPow(pow) && m.annualRate > 0.0 && y >= 1
    requires extra1 < extra2
    ensures DebtAtYear(m, y as real, extra2, pow) < DebtAtYear(m, y as real, extra1, pow)
  {
    PowAt(pow, 1.0 + m.annualRate, y);
    PowAboveOne(1.0 + m.annualRate, y);
    DebtDecreasesWithExtraPayment(m, y as real, extra1, extra2, pow);
  }

  /** The same for the month view. */
  lemma DebtAtMonthDecreasesWithExtraPayment(m: Mortgage, month: real, extra1: real, extra2: real, pow: RealPow)
    requires DebtDefined(m, pow) && m.annualRate > 0.0 && pow(1.0 + m.annualRate, month / 12.0) > 1.0
    requires extra1 < extra2
    ensures DebtAtMonth(m, month, extra2, pow) < DebtAtMonth(m, month, extra1, pow)
  {
    DebtDecreasesWithExtraPayment(m, month / 12.0, 12.0 * extra1, 12.0 * extra2, pow);
  }

  /** The annual payment is the only constant payment that retires the debt at
      the end of the term: any extra payment overshoots, any shortfall leaves debt. */
  lemma PaymentRetiresDebtExactly(m: Mortgage, extraAnnual: real, pow: RealPow)
    requires DebtDefined(m, pow) && m.annualRate > 0.0 && Growth(m, m.termYears, pow) > 1.0
    ensures DebtAtYear(m, m.termYears, extraAnnual, pow) == 0.0 <==> extraAnnual == 0.0
    ensures DebtAtYear(m, m.termYears, extraAnnual, pow) < 0.0 <==> extraAnnual > 0.0
  {
    DebtAtTermIsZero(m, pow);
    if extraAnnual > 0.0 {
      DebtDecreasesWithExtraPayment(m, m.termYears, 0.0, extraAnnual, pow);
    } else if extraAnnual < 0.0 {
      DebtDecreasesWithExtraPayment(m, m.termYears, extraAnnual, 0.0, pow);
    }
  }

  /** For a positive principal and rate and a whole term of at least one year,
      the payment is well defined and positive. */
  lemma AnnualPaymentPositive(m: Mortgage, n: nat, pow: RealPow)
    requires ExtendsPow(pow) && m.termYears == n as real && n >= 1
    requires m.principal > 0.0 && m.annualRate > 0.0
    ensures DebtDefined(m, pow) && AnnualPayment(m, pow) > 0.0
    ensures MonthlyPayment(m, pow) > 0.0
  {
    PowAt(pow, 1.0 + m.annualRate, n);
    PowAboveOne(1.0 + m.annualRate, n);
    var g := Growth(m, m.termYears, pow);
    assert m.principal * g * m.annualRate > 0.0;
  }

  /** At every year boundary the month view follows the annual schedule, with
      twelve monthly extra payments counted as one annual extra payment. */
  lemma DebtAtMonthFollowsSchedule(m: Mortgage, y: nat, extraMonthly: real, pow: RealPow)
    requires DebtDefined(m, pow) && ExtendsPow(pow)
    ensures DebtAtMonth(m, (12 * y) as real, extraMonthly, pow)
            == ScheduledDebt(m.principal, 1.0 + m.annualRate, AnnualPayment(m, pow) + 12.0 * extraMonthly, y)
  {
    assert (12 * y) as real / 12.0 == y as real;
    ClosedFormMatchesSchedule(m, y, 12.0 * extraMonthly, pow);
  }

  /** The month view starts at the principal and, without extra payments,
      reaches 0 at month 12 * term. */
  lemma DebtAtMonthEndpoints(m: Mortgage, extraMonthly: real, pow: RealPow)
    requires DebtDefined(m, pow) && ExtendsPow(pow)
    ensures DebtAtMonth(m, 0.0, extraMonthly, pow) == m.principal
    ensures DebtAtMonth(m, 12.0 * m.termYears, 0.0, pow) == 0.0
  {
    DebtAtStartIsPrincipal(m, 12.0 * extraMonthly, pow);
    assert 12.0 * m.termYears / 12.0 == m.termYears;
    DebtAtTermIsZero(m, pow);
  }

  /** What the rest of the program sees of a mortgage (the module imported by
      investment_property.py and the `loan_down_payment_` attribute read by
      balance_sheet.py are not part of this model, so they are taken as given). */
  datatype LoanView = LoanView(
    monthlyPayment: real,
    downPayment: real,
    termYears: real,
    debtAtYear: (real, real) -> real,
    debtAtMonth: (real, real) -> real)

  /** The view is backed by the concrete mortgage `m`. */
  ghost predicate BackedBy(v: LoanView, m: Mortgage, pow: RealPow)
    requires DebtDefined(m, pow)
  {
    && v.monthlyPayment == MonthlyPayment(m, pow)
    && v.termYears == m.termYears
    && (forall y, a :: v.debtAtYear(y, a) == DebtAtYear(m, y, a, pow))
    && (forall mo, e :: v.debtAtMonth(mo, e) == DebtAtMonth(m, mo, e, pow))
  }

  /** The month view of a loan delegates to its year view. */
  ghost predicate MonthDelegatesToYear(v: LoanView)
  {
    forall mo, e :: v.debtAtMonth(mo, e) == v.debtAtYear(mo / 12.0, 12.0 * e)
  }

  /** The concrete mortgage seen as a loan; the down payment is not one of its
      attributes and is supplied separately. */
  function ViewOf(m: Mortgage, downPayment: real, pow: RealPow): (v: LoanView)
    requires DebtDefined(m, pow)
    ensures BackedBy(v, m, pow) && MonthDelegatesToYear(v)
    ensures v.downPayment == downPayment
  {
    LoanView(
      MonthlyPayment(m, pow),
      downPayment,
      m.termYears,
      (y, a) => DebtAtYear(m, y, a, pow),
      (mo, e) => DebtAtMonth(m, mo, e, pow))
  }
}

=== FILE: powers.dfy ===
/** Exponentiation. Python's `**` on floats accepts fractional exponents, which
    Dafny cannot compute; the model therefore takes it as a parameter of type
    `RealPow` and pins it down only where the exponent is a whole number. */
module Powers {

  /** x raised to a whole-number power. */
  function Pow(x: real, n: nat): real
  {
    if n == 0 then 1.0 else x * Pow(x, n - 1)
  }

  /** The exponentiation `x ** y` of the Python code, left abstract. */
  type RealPow = (real, real) -> real

  /** `pow` agrees with repeated multiplication on whole-number exponents, as
      real exponentiation does. */
  ghost predicate ExtendsPow(pow: RealPow)
  {
    forall x: real, n: nat :: pow(x, n as real) == Pow(x, n)
  }

  lemma PowAt(pow: RealPow, x: real, n: nat)
    requires ExtendsPow(pow)
    ensures pow(x, n as real) == Pow(x, n)
  {
  }

  lemma {:induction false} PowAdd(x: real, a: nat, b: nat)
    ensures Pow(x, a + b) == Pow(x, a) * Pow(x, b)
    decreases a
  {
    if a > 0 {
      PowAdd(x, a - 1, b);
      assert Pow(x, a + b) == x * Pow(x, (a - 1) + b);
    }
  }

  /** A base above one grows past one after at least one step. */
  lemma {:induction false} PowAboveOne(x: real, n: nat)
    requires x > 1.0 && n >= 1
    ensures Pow(x, n) >= x > 1.0
    decreases n
  {
    if n > 1 {
      PowAboveOne(x, n - 1);
      assert x * Pow(x, n - 1) >= x * x;
    }
  }

  /** `pow` splits a whole exponent into a sum. */
  lemma PowSplits(pow: RealPow, x: real, a: nat, b: nat)
    requires ExtendsPow(pow)
    ensures pow(x, (a + b) as real) == pow(x, a as real) * Pow(x, b)
  {
    PowAt(pow, x, a + b);
    PowAt(pow, x, a);
    PowAdd(x, a, b);
  }
}

=== FILE: projection.dfy ===
/** The series builder of `calculate_all`, shared by both `investment_property`
    classes: month by month it records the remaining debt, the equity, the
    property value and the payment, clamped so that no debt is negative, and
    it remembers the last month that still carried debt. The builder is
    generic in the debt and value curves, so the clamping facts below hold
    whatever power function the curves are computed with. */
module Projection {

  /** The five aligned lists of the `results` dict. */
  datatype Series = Series(
    months: seq<int>,
    debts: seq<real>,
    equities: seq<real>,
    payments: seq<real>,
    values: seq<real>)

  /** The length of `range(int(12 * term))`: `int` truncates toward zero and
      the range of a non-positive count is empty. */
  function MonthCount(termYears: real): (n: nat)
    ensures 12.0 * termYears < 1.0 ==> n == 0
    ensures 12.0 * termYears >= 1.0 ==> n as real <= 12.0 * termYears < (n + 1) as real
  {
    if 12.0 * termYears <= 0.0 then 0 else (12.0 * termYears).Floor
  }

  /** `debt if debt > 0 else 0.0`: the debt, never below zero. */
  function ClampedDebt(debt: real): (r: real)
    ensures r >= 0.0 && r >= debt
    ensures r == debt || r == 0.0
  {
    if debt > 0.0 then debt else 0.0
  }

  /** `equity if equity < value else value`: the equity, never above the value. */
  function ClampedEquity(equity: real, value: real): (r: real)
    ensures r <= value && r <= equity
    ensures r == equity || r == value
  {
    if equity < value then equity else value
  }

  /** The payment made in a month: the full instalment while debt remains. */
  function PaymentFor(debt: real, instalment: real): (r: real)
    ensures debt > 0.0 ==> r == instalment
    ensures r == 0.0 <==> debt <= 0.0 || instalment == 0.0
  {
    if debt > 0.0 then instalment else 0.0
  }

  /** The last of the first `n` months whose debt is still positive, or 0 if
      there is none. */
  function LastMonthWithDebt(debtAt: int -> real, n: nat): (k: nat)
    ensures n == 0 ==> k == 0
    ensures n > 0 ==> k < n
    ensures k > 0 ==> debtAt(k) > 0.0
    ensures forall i :: k < i < n ==> debtAt(i) <= 0.0
  {
    if n == 0 then 0
    else if debtAt(n - 1) > 0.0 then n - 1
    else LastMonthWithDebt(debtAt, n - 1)
  }

  /** Clamping the equity against the value is the same as subtracting the
      clamped debt. */
  lemma ClampedEquityIsValueLessClampedDebt(debt: real, value: real)
    ensures ClampedEquity(value - debt, value) == value - ClampedDebt(debt)
  {
  }

  /** The facts every row of a projection carries, from the row's definition. */
  lemma RowsAreClamped(debtAt: int -> real, valueAt: int -> real, instalment: real,
                       debts: seq<real>, equities: seq<real>, payments: seq<real>, values: seq<real>)
    requires |debts| == |equities| == |payments| == |values|
    requires forall i :: 0 <= i < |values| ==> values[i] == valueAt(i)
    requires forall i :: 0 <= i < |debts| ==> debts[i] == ClampedDebt(debtAt(i))
    requires forall i :: 0 <= i < |equities| ==> equities[i] == values[i] - debts[i]
    requires forall i :: 0 <= i < |payments| ==> payments[i] == PaymentFor(debtAt(i), instalment)
    ensures forall i :: 0 <= i < |debts| ==> debts[i] >= 0.0 && equities[i] <= values[i]
    ensures forall i :: 0 <= i < |debts| ==> (equities[i] == values[i] <==> debtAt(i) <= 0.0)
    ensures forall i :: 0 <= i < |debts| ==> (payments[i] == 0.0 <==> debtAt(i) <= 0.0 || instalment == 0.0)
  {
  }

  /** calculate_all: one row per month of the term, and the payoff time in
      years (the last month with positive debt, over twelve). */
  method Project(termYears: real, monthlyPayment: real, extraMonthly: real,
                 debtAt: int -> real, valueAt: int -> real)
    returns (s: Series, paidOffYears: real)
    ensures |s.months| == |s.debts| == |s.equities| == |s.payments| == |s.values| == MonthCount(termYears)
    ensures forall i :: 0 <= i < |s.months| ==> s.months[i] == i
    ensures forall i :: 0 <= i < |s.values| ==> s.values[i] == valueAt(i)
    ensures forall i :: 0 <= i < |s.debts| ==> s.debts[i] == ClampedDebt(debtAt(i))
    ensures forall i :: 0 <= i < |s.debts| ==> s.debts[i] >= 0.0
    ensures forall i :: 0 <= i < |s.equities| ==> s.equities[i] == s.values[i] - s.debts[i]
    ensures forall i :: 0 <= i < |s.equities| ==> s.equities[i] <= s.values[i]
    ensures forall i :: 0 <= i < |s.equities| ==> (s.equities[i] == s.values[i] <==> debtAt(i) <= 0.0)
    ensures forall i :: 0 <= i < |s.payments| ==> s.payments[i] == PaymentFor(debtAt(i), monthlyPayment + extraMonthly)
    ensures forall i :: 0 <= i < |s.payments| ==>
              (s.payments[i] == 0.0 <==> debtAt(i) <= 0.0 || monthlyPayment + extraMonthly == 0.0)
    ensures paidOffYears * 12.0 == LastMonthWithDebt(debtAt, MonthCount(termYears)) as real
  {
    var n := MonthCount(termYears);
    var months: seq<int> := [];
    var debts: seq<real> := [];
    var equities: seq<real> := [];
    var payments: seq<real> := [];
    var values: seq<real> := [];
    var monthsUntilPaidOff: nat := 0;
    var month := 0;
    while month < n
      invariant 0 <= month <= n
      invariant |months| == |debts| == |equities| == |payments| == |values| == month
      invariant forall i :: 0 <= i < month ==>
                  months[i] == i && values[i] == valueAt(i) && debts[i] == ClampedDebt(debtAt(i)) &&
                  equities[i] == values[i] - debts[i] &&
                  payments[i] == PaymentFor(debtAt(i), monthlyPayment + extraMonthly)
      invariant monthsUntilPaidOff == LastMonthWithDebt(debtAt, month)
    {
      var debt := debtAt(month);
      var value := valueAt(month);
      var equity := value - debt;
      ClampedEquityIsValueLessClampedDebt(debt, value);
      months := months + [month];
      debts := debts + [ClampedDebt(debt)];
      equities := equities + [ClampedEquity(equity, value)];
      values := values + [value];
      payments := payments + [PaymentFor(debt, monthlyPayment + extraMonthly)];
      if debt > 0.0 {
        monthsUntilPaidOff := month;
      }
      month := month + 1;
    }
    RowsAreClamped(debtAt, valueAt, monthlyPayment + extraMonthly, debts, equities, payments, values);
    s := Series(months, debts, equities, payments, values);
    paidOffYears := monthsUntilPaidOff as real / 12.0;
  }
}

=== FILE: results.dfy ===
/** Failure-compatible outcomes for the computations that the Python code lets
    raise (or, in the numpy case, lets degenerate into inf/nan). */
module Results {

  /** The ways a computation of the model can fail. */
  datatype Error =
    | DivisionByZero   // Python's ZeroDivisionError on a float or int division
    | IndexOutOfRange  // Python's IndexError
    | NonFinite        // a numpy float64 division by zero: inf or nan, not a real number
    | MissingAttribute // Python's AttributeError: a name the object does not have

  datatype Result<+T> = Success(value: T) | Failure(error: Error) {

    predicate IsFailure() {
      Failure?
    }

    function PropagateFailure<U>(): Result<U>
      requires Failure?
    {
      Failure(error)
    }

    function Extract(): T
      requires Success?
    {
      value
    }
  }

  datatype Option<+T> = None | Some(value: T)
}

=== FILE: scenarios.dfy ===
/** Worked examples: a small rental, a 300000 loan at 4% over 30 years and a
    3% appreciation over ten years, computed with the model. */
module Scenarios {
  import opened Results
  import opened Dicts
  import opened Mortgages
  import opened BalanceSheets
  import opened Powers
  import opened InvestmentProperties

  /** A loan seen only through its monthly payment of 1430.11. */
  function ExampleLoan(): LoanView
  {
    LoanView(1430.11, 0.0, 30.0, (y, a) => 0.0, (mo, e) => 0.0)
  }

  /** Rent 2000 a month; mortgage 1430.11 and insurance 100 a month; tax 3600
      a year; no capital expenditures. */
  function RentalWithoutCapEx(): BalanceSheet
  {
    BalanceSheet(
      [Entry("Down payment", 0.0)],
      [Entry("Rent", 2000.0)],
      [Entry("Tax", 3600.0)],
      [Entry("Mortgage", 1430.11), Entry("Insurance", 100.0)],
      [], [],
      ExampleLoan())
  }

  /** Without a capital expenditure the expense total cannot be formed: the
      empty capital-expenditure list reaches the sort, whose `vals[1]` fails,
      so no cash flow is produced. */
  lemma RentalWithoutCapExFails()
    ensures CalculateTotalExpenses(RentalWithoutCapEx()) == Failure(IndexOutOfRange)
    ensures CashFlow(RentalWithoutCapEx()) == Failure(IndexOutOfRange)
  {
    assert NoCapExAmount(RentalWithoutCapEx().capitalExpenditures);
  }

  /** The same rental with a roof to replace every 20 years for 24000, a
      reserve of 100 a month. */
  function RentalWithRoof(): BalanceSheet
  {
    RentalWithoutCapEx().(capitalExpenditures := [Entry("Roof", CapEx(20.0, 24000.0))])
  }

  /** The rent is the only income. */
  lemma RentalWithRoofIncome()
    ensures !NoIncome(RentalWithRoof()) && IncomeTotal(RentalWithRoof()) == 2000.0
  {
    var s := RentalWithRoof();
    assert s.monthlyIncome[0].value != 0.0;
    assert NonZero(s.monthlyIncome) == s.monthlyIncome;
    assert Values(s.monthlyIncome) == [2000.0];
    assert Sum([2000.0]) == 2000.0 + Sum([]);
  }

  /** 24000 over 12 * 20 months is 100 a month. */
  lemma RentalWithRoofReserve()
    ensures !CapExDividesByZero(RentalWithRoof().capitalExpenditures)
    ensures !NoCapExAmount(RentalWithRoof().capitalExpenditures)
    ensures CapExTotal(RentalWithRoof()) == 100.0
  {
    var d := RentalWithRoof().capitalExpenditures;
    assert d[0].value.amount != 0.0;
    assert d[1..] == [];
    assert MonthlyCapEx([]) == Success([]);
    assert 24000.0 / (12.0 * 20.0) == 100.0;
    assert [Entry("Roof", 100.0)] + [] == [Entry("Roof", 100.0)];
    assert MonthlyCapEx(d) == Success([Entry("Roof", 100.0)]);
    assert Values([Entry("Roof", 100.0)]) == [100.0];
    assert Sum([100.0]) == 100.0 + Sum([]);
  }

  /** The expense items before sorting add up to 1930.11. */
  lemma RentalWithRoofExpenses()
    ensures Sum(Values(ExpenseItems(RentalWithRoof(), 2000.0, 100.0))) == 1930.11
  {
    var s := RentalWithRoof();
    assert NonZero(s.annualExpenses) == s.annualExpenses;
    assert NonZero(s.monthlyExpenses) == s.monthlyExpenses;
    var items := ExpenseItems(s, 2000.0, 100.0);
    assert items == [Entry("Tax", 300.0), Entry("Mortgage", 1430.11), Entry("Insurance", 100.0),
                     Entry("Capital expenditures", 100.0)];
    assert Values(items) == [300.0, 1430.11, 100.0, 100.0];
    assert Sum([100.0]) == 100.0 + Sum([]);
    assert Sum([100.0, 100.0]) == 100.0 + Sum([100.0]);
    assert Sum([1430.11, 100.0, 100.0]) == 1430.11 + Sum([100.0, 100.0]);
    assert Sum([300.0, 1430.11, 100.0, 100.0]) == 300.0 + Sum([1430.11, 100.0, 100.0]);
  }

  /** Expenses are the tax (300 a month), the mortgage, the insurance and
      the roof reserve, 1930.11 in all, leaving 69.89 of the rent a month. */
  lemma RentalWithRoofCashFlow()
    ensures CashFlow(RentalWithRoof()) == Success(69.89)
  {
    var s := RentalWithRoof();
    RentalWithRoofIncome();
    RentalWithRoofReserve();
    RentalWithRoofExpenses();
    assert ExpenseItems(s, IncomeTotal(s), CapExTotal(s)) != [];
    ExpensesFailOnlyWithoutItems(s);
    CashFlowIgnoresOrder(s);
  }

  /** The rental with the roof reserve, bought for 300000 and appreciating
      3% a year. */
  function RentalProperty(): InvestmentProperty
  {
    InvestmentProperty(ExampleLoan(), Some(RentalWithRoof()), 300000.0, 0.03)
  }

  /** For the rental, the cap rate as written raises, while the intended
      call gives the cash flow over the purchase price. */
  lemma RentalCapRate()
    ensures PurchaseCapRateAsWritten(RentalProperty()) == Failure(MissingAttribute)
    ensures PurchaseCapRate(RentalProperty()).Success?
    ensures PurchaseCapRate(RentalProperty()).value * 300000.0 == 69.89
  {
    RentalWithRoofCashFlow();
  }

  /** 1.04 ** 30, exactly. */
  lemma GrowthOverThirtyYears()
    ensures Pow(1.04, 30) == 3.243397510027538043620682498461308761866773171613529303678976
  {
    assert Pow(1.04, 1) == 1.04;
    assert Pow(1.04, 2) == 1.0816;
    assert Pow(1.04, 3) == 1.124864;
    assert Pow(1.04, 4) == 1.16985856;
    assert Pow(1.04, 5) == 1.2166529024;
    PowAdd(1.04, 5, 5);
    assert Pow(1.04, 10) == 1.48024428491834392576;
    PowAdd(1.04, 10, 10);
    assert Pow(1.04, 20) == 2.1911231430334193505480762776602883915776;
    PowAdd(1.04, 20, 10);
  }

  /** A 300000 loan at 4% over 30 years. */
  function ExampleMortgage(): Mortgage
  {
    Mortgage(300000.0, 0.04, 30.0)
  }

  /** The annual payment is 17349.03 and the monthly payment 1445.75, to the
      cent. */
  lemma ExampleMortgagePayments(pow: RealPow)
    requires ExtendsPow(pow)
    ensures DebtDefined(ExampleMortgage(), pow)
    ensures 17349.02 < AnnualPayment(ExampleMortgage(), pow) < 17349.04
    ensures 1445.75 < MonthlyPayment(ExampleMortgage(), pow) < 1445.76
  {
    GrowthOverThirtyYears();
    PowAt(pow, 1.04, 30);
  }

  /** 1.03 ** 10, exactly. */
  lemma AppreciationOverTenYears()
    ensures Pow(1.03, 10) == 1.34391637934412192049
  {
    assert Pow(1.03, 1) == 1.03;
    assert Pow(1.03, 2) == 1.0609;
    assert Pow(1.03, 3) == 1.092727;
    assert Pow(1.03, 4) == 1.12550881;
    assert Pow(1.03, 5) == 1.1592740743;
    PowAdd(1.03, 5, 5);
  }

  /** A 300000 property appreciating 3% a year is worth 403174.91 after ten
      years, to the cent. */
  lemma ExamplePropertyValue(p: InvestmentProperty, pow: RealPow)
    requires ExtendsPow(pow) && p.initialValue == 300000.0 && p.appreciationRate == 0.03
    ensures 403174.91 < ValueAtYear(p, 10.0, pow) < 403174.92
  {
    AppreciationOverTenYears();
    PowAt(pow, 1.03, 10);
  }
}

=== FILE: sorting.dfy ===
/** `balance_sheet._sort`: a stable sort of (name, value) pairs on the value
    alone, returned as two parallel lists. */
module Sorting {
  import opened Results
  import opened Dicts

  /** Two parallel lists, names and values, as the sorter returns them. */
  datatype Listing = Listing(names: seq<string>, values: seq<real>)

  /** `zip(names, values)`: pairs up to the shorter of the two lists. */
  function Zip(names: seq<string>, values: seq<real>): (r: seq<Entry<real>>)
    ensures |r| == if |names| < |values| then |names| else |values|
    ensures forall i :: 0 <= i < |r| ==> r[i] == Entry(names[i], values[i])
  {
    if names == [] || values == [] then []
    else [Entry(names[0], values[0])] + Zip(names[1..], values[1..])
  }

  lemma ZipOfDict(d: Dict<real>)
    ensures Zip(Names(d), Values(d)) == d
  {
  }

  /** The pairs of a listing. */
  function Pairs(l: Listing): seq<Entry<real>>
  {
    Zip(l.names, l.values)
  }

  ghost predicate SortedByValue(s: seq<Entry<real>>)
  {
    forall i, j :: 0 <= i < j < |s| ==> s[i].value <= s[j].value
  }

  /** The entries of `s` whose value is `v`, in their order in `s`. */
  function WithValue(s: seq<Entry<real>>, v: real): seq<Entry<real>>
  {
    if s == [] then [] else (if s[0].value == v then [s[0]] else []) + WithValue(s[1..], v)
  }

  /** `r` is what a stable sort on the value makes of `s`: sorted, and for
      every value the entries carrying it appear in their original order. */
  ghost predicate IsStableSortOf(r: seq<Entry<real>>, s: seq<Entry<real>>)
  {
    SortedByValue(r) && forall v :: WithValue(r, v) == WithValue(s, v)
  }

  lemma {:induction false} InWithValue(s: seq<Entry<real>>, v: real, e: Entry<real>)
    ensures e in WithValue(s, v) <==> e in s && e.value == v
  {
    if s != [] {
      InWithValue(s[1..], v, e);
      assert s == [s[0]] + s[1..];
    }
  }

  /** A stable sort neither loses nor invents entries. */
  lemma StableSortKeepsEntries(r: seq<Entry<real>>, s: seq<Entry<real>>, e: Entry<real>)
    requires IsStableSortOf(r, s)
    ensures e in r <==> e in s
  {
    InWithValue(r, e.value, e);
    InWithValue(s, e.value, e);
  }

  /** Insert `x` before the first entry whose value is not below its own. */
  function Insert(x: Entry<real>, t: seq<Entry<real>>): (r: seq<Entry<real>>)
    ensures |r| == |t| + 1
    ensures multiset(r) == multiset(t) + multiset{x}
  {
    if t == [] || x.value <= t[0].value then [x] + t
    else
      assert t == [t[0]] + t[1..];
      [t[0]] + Insert(x, t[1..])
  }

  /** Putting in front of a sorted list an entry no greater than any of it
      keeps it sorted. */
  lemma ConsSorted(e: Entry<real>, s: seq<Entry<real>>)
    requires SortedByValue(s)
    requires forall k :: 0 <= k < |s| ==> e.value <= s[k].value
    ensures SortedByValue([e] + s)
  {
    var r := [e] + s;
    forall i, j | 0 <= i < j < |r|
      ensures r[i].value <= r[j].value
    {
      assert r[j] == s[j - 1];
      if i > 0 {
        assert r[i] == s[i - 1];
      }
    }
  }

  /** A lower bound on `x` and on all of `t` bounds all of their insertion. */
  lemma {:induction false} InsertBoundedBelow(x: Entry<real>, t: seq<Entry<real>>, lo: real)
    requires lo <= x.value
    requires forall k :: 0 <= k < |t| ==> lo <= t[k].value
    ensures forall k :: 0 <= k < |Insert(x, t)| ==> lo <= Insert(x, t)[k].value
  {
    if t == [] || x.value <= t[0].value {
      assert Insert(x, t) == [x] + t;
    } else {
      InsertBoundedBelow(x, t[1..], lo);
      var rest := Insert(x, t[1..]);
      assert Insert(x, t) == [t[0]] + rest;
      forall k | 0 <= k < |Insert(x, t)|
        ensures lo <= Insert(x, t)[k].value
      {
        if k > 0 {
          assert Insert(x, t)[k] == rest[k - 1];
        }
      }
    }
  }

  lemma {:induction false} InsertSorted(x: Entry<real>, t: seq<Entry<real>>)
    requires SortedByValue(t)
    ensures SortedByValue(Insert(x, t))
  {
    if t == [] || x.value <= t[0].value {
      ConsSorted(x, t);
    } else {
      var tail := t[1..];
      assert SortedByValue(tail);
      assert forall k :: 0 <= k < |tail| ==> t[0].value <= tail[k].value by {
        forall k | 0 <= k < |tail|
          ensures t[0].value <= tail[k].value
        {
          assert tail[k] == t[k + 1];
        }
      }
      InsertSorted(x, tail);
      InsertBoundedBelow(x, tail, t[0].value);
      ConsSorted(t[0], Insert(x, tail));
    }
  }

  lemma WithValueCons(e: Entry<real>, s: seq<Entry<real>>, v: real)
    ensures WithValue([e] + s, v) == (if e.value == v then [e] else []) + WithValue(s, v)
  {
    assert ([e] + s)[1..] == s;
  }

  /** Inserting `x` puts it ahead of the entries of equal value and moves
      nothing else relative to them. */
  lemma {:induction false} InsertWithValue(x: Entry<real>, t: seq<Entry<real>>, v: real)
    ensures WithValue(Insert(x, t), v) == (if x.value == v then [x] else []) + WithValue(t, v)
  {
    if t == [] || x.value <= t[0].value {
      WithValueCons(x, t, v);
    } else {
      var tail := t[1..];
      var rest := Insert(x, tail);
      assert Insert(x, t) == [t[0]] + rest;
      assert WithValue(t, v) == (if t[0].value == v then [t[0]] else []) + WithValue(tail, v);
      InsertWithValue(x, tail, v);
      WithValueCons(t[0], rest, v);
      if x.value == v {
        assert t[0].value != v;
        assert WithValue(Insert(x, t), v) == WithValue(rest, v);
        assert WithValue(t, v) == WithValue(tail, v);
      } else {
        assert WithValue(rest, v) == WithValue(tail, v);
      }
    }
  }

  /** Inserting the head of `s` into a stable sort of its tail gives a
      stable sort of `s`. */
  lemma InsertHeadIsStable(s: seq<Entry<real>>, t: seq<Entry<real>>)
    requires s != [] && IsStableSortOf(t, s[1..])
    ensures IsStableSortOf(Insert(s[0], t), s)
  {
    InsertSorted(s[0], t);
    forall v
      ensures WithValue(Insert(s[0], t), v) == WithValue(s, v)
    {
      InsertWithValue(s[0], t, v);
    }
  }

  lemma MultisetOfHeadAndTail(s: seq<Entry<real>>)
    requires s != []
    ensures multiset(s) == multiset(s[1..]) + multiset{s[0]}
  {
    assert s == [s[0]] + s[1..];
  }

  /** Insertion sort, stable on the value. */
  function StableSort(s: seq<Entry<real>>): (r: seq<Entry<real>>)
    ensures |r| == |s|
    ensures multiset(r) == multiset(s)
    ensures IsStableSortOf(r, s)
  {
    if s == [] then []
    else
      var t := StableSort(s[1..]);
      InsertHeadIsStable(s, t);
      MultisetOfHeadAndTail(s);
      Insert(s[0], t)
  }

  /** Entries and values of a listing built from pairs. */
  function Unzip(s: seq<Entry<real>>): (l: Listing)
    ensures |l.names| == |l.values| == |s|
    ensures Pairs(l) == s
  {
    Listing(Names(s), Values(s))
  }

  /** `_sort(names, values)`: the pairs sorted on the value; with no pairs the
      transposition yields no lists and `vals[1]` raises. */
  function SortByValue(names: seq<string>, values: seq<real>): (r: Result<Listing>)
    ensures r.Failure? <==> |names| == 0 || |values| == 0
    ensures r.Failure? ==> r.error == IndexOutOfRange
    ensures r.Success? ==> |r.value.names| == |r.value.values| == |Zip(names, values)|
    ensures r.Success? ==> IsStableSortOf(Pairs(r.value), Zip(names, values))
    ensures r.Success? ==> multiset(Pairs(r.value)) == multiset(Zip(names, values))
  {
    var pairs := Zip(names, values);
    if pairs == [] then Failure(IndexOutOfRange) else Success(Unzip(StableSort(pairs)))
  }

  lemma {:induction false} SumInsert(x: Entry<real>, t: seq<Entry<real>>)
    ensures Sum(Values(Insert(x, t))) == x.value + Sum(Values(t))
  {
    if t != [] && x.value > t[0].value {
      SumInsert(x, t[1..]);
      assert Values(Insert(x, t))[1..] == Values(Insert(x, t[1..]));
      assert Values(t)[1..] == Values(t[1..]);
    } else {
      assert Values(Insert(x, t))[1..] == Values(t);
    }
  }

  /** Sorting does not change the total of the values. */
  lemma {:induction false} SumOfStableSort(s: seq<Entry<real>>)
    ensures Sum(Values(StableSort(s))) == Sum(Values(s))
  {
    if s != [] {
      SumOfStableSort(s[1..]);
      SumInsert(s[0], StableSort(s[1..]));
      assert Values(s)[1..] == Values(s[1..]);
    }
  }

  /** The two lists of a successful sort have the totals of their input. */
  lemma SortByValueKeepsSum(d: Dict<real>)
    requires d != []
    ensures SortByValue(Names(d), Values(d)).Success?
    ensures Sum(SortByValue(Names(d), Values(d)).value.values) == Sum(Values(d))
  {
    ZipOfDict(d);
    SumOfStableSort(d);
  }
}
